=== FILE: README.md ===
# FlowScript compilation-unit writer, modelled in Dafny

This project models the FlowScript pretty-printer of Atlus Script Tools:
the `WriterVisitor` inside `CompilationUnitWriter`. The visitor walks a
FlowScript syntax tree and prints it back as source text. It writes an
import block, a comment banner before the first function prototype and
before the first script-level variable, and then every declaration. Procedure
bodies are written statement by statement, with indentation, braces and
terminators. Expressions are written with the writer's own literal and
identifier formatting rules.

The model is functional. The writer's fields become an immutable
`Writer` record:

- the output `Sink`: the text, the tab level and the "inside a line" flag;
- the current procedure;
- the two suppression stacks.

Each `Visit` overload becomes a pure function that takes a writer and
returns the next one. When a bare return throws, the result is instead one
of three `RenderError`s. The modules follow the layers of the source:

- `OutputSink` (sink.dfy): the write primitives.
- `Literals` and `BitBounds` (literals.dfy, bitbounds.dfy): the integer
  literal heuristic and the hex widths. `uint` is `bv32`, and `int` is held
  as its bit pattern.
- `Identifiers` (identifiers.dfy): identifier escaping.
- `Expressions` (expressions.dfy): expressions, operators, parameter lists
  and if conditions.
- `Renderer` (renderer.dfy): the statement wrapper, every statement kind,
  and the declarations.
- `Unit` (unit.dfy): the import block, the banners and the compilation-unit
  loop. This includes `RenderCompilationUnit`, a method that runs the loop
  with the source's two flags and is proved equal to the flag-free
  definition `RenderUnit`.
- `RenderInvariants`, `StatementShapes`, `RenderEquivalence`,
  `ReturnElision` and `RenderExamples`: what is proved about the renderer.

The behaviour follows the code as written, including its quirks:

- a valued return prints as `return` immediately followed by the value;
- a multi-line comment ends with ` /*`;
- at tab level 0 the closing `}` is written after whatever the last line
  holds;
- a hex literal is padded to two, four or eight digits, so 256 prints as
  `0x0100` and 0x8000 as `0x00008000`.

Assumptions about code outside this file:

- **Statement dispatch.** The base visitor's dispatch is an exhaustive match.
  - Bodies of `if`, `while`, `for` and procedures are typed as compound
    statements, so they go to the compound visit without the statement
    wrapper.
  - The nested `if` of an `else if` goes straight to the if visit.
  - Top-level declarations go through the declaration dispatch, not the
    statement wrapper.
  - Statements inside compounds and switch labels go through the wrapper.
- **For loops.** The initializer, the condition and the after-loop part of
  a `for` node are expressions. They are written as expression text, with no
  statement wrapper, so they get no indentation and no `;` of their own.
  The `; ` between them comes from the for visit itself.
- **Switch labels.** A switch label has no visit of its own in this file.
  The base visit writes the label's case condition, if it has one, and then
  its statements. No `case` keyword and no `:` are written.
- **Current procedure.** `mProcedure` is compared by reference with the last
  statement of its body.
  - The model gives every visited procedure a serial number.
  - A statement's `Position` says whether it is the last statement of the
    body of the procedure with that serial.

## Model

Every path below is relative to the repository root.

| member | source | states |
|---|---|---|
| OutputSink.Write | Source/AtlusScriptLibrary/FlowScriptLanguage/Decompiler/CompilationUnitWriter.cs:602-606 | the value is appended, the tab level is kept, and the cursor is then inside a line |
| OutputSink.WriteLine | Source/AtlusScriptLibrary/FlowScriptLanguage/Decompiler/CompilationUnitWriter.cs:608-612 | the value and a line terminator are appended, and the cursor is then at the start of a line |
| OutputSink.WriteNewLine | Source/AtlusScriptLibrary/FlowScriptLanguage/Decompiler/CompilationUnitWriter.cs:631-635 | only a line terminator is appended, and the cursor is at the start of a line |
| OutputSink.WriteIndentation | Source/AtlusScriptLibrary/FlowScriptLanguage/Decompiler/CompilationUnitWriter.cs:620-629 | exactly two spaces per tab level are appended, and the line counts as started even at level 0 |
| OutputSink.WriteWithSeparator | Source/AtlusScriptLibrary/FlowScriptLanguage/Decompiler/CompilationUnitWriter.cs:614-618 | the value and one space are appended |
| OutputSink.WriteNewLineAndIndent | Source/AtlusScriptLibrary/FlowScriptLanguage/Decompiler/CompilationUnitWriter.cs:637-641 | a line terminator and then the current indentation are appended, leaving the cursor inside the new line |
| OutputSink.WriteIndented | Source/AtlusScriptLibrary/FlowScriptLanguage/Decompiler/CompilationUnitWriter.cs:643-647 | the indentation and then the value are appended |
| OutputSink.WriteIndentedLine | Source/AtlusScriptLibrary/FlowScriptLanguage/Decompiler/CompilationUnitWriter.cs:649-653 | the indentation, the value and a line terminator are appended, ending at the start of a line |
| OutputSink.WriteStatementEnd | Source/AtlusScriptLibrary/FlowScriptLanguage/Decompiler/CompilationUnitWriter.cs:692-695 | `;` and a line terminator are appended, ending at the start of a line |
| Identifiers.IdentifierText | Source/AtlusScriptLibrary/FlowScriptLanguage/Decompiler/CompilationUnitWriter.cs:509-520 | a name is written verbatim exactly when it matches the identifier pattern; the match follows .NET, where `$` also accepts a final line terminator. Any other name gains a pair of double backticks, four characters longer, and stripping them gives back the name |
| Identifiers.IdentifierExamples | Source/AtlusScriptLibrary/FlowScriptLanguage/Decompiler/CompilationUnitWriter.cs:509-520 | `foo_bar2` is kept, while `1 bad` and the empty name are escaped; `name` followed by a line terminator is kept |
| Expressions.NamesWrittenRaw | Source/AtlusScriptLibrary/FlowScriptLanguage/Decompiler/CompilationUnitWriter.cs:390-410 | type names, callee names and parameter names are written unescaped |
| Expressions.BoolText | Source/AtlusScriptLibrary/FlowScriptLanguage/Decompiler/CompilationUnitWriter.cs:528-531 | true prints as `True` and false as `False`, and nothing else prints as either |
| Expressions.QuotedText | Source/AtlusScriptLibrary/FlowScriptLanguage/Decompiler/CompilationUnitWriter.cs:783-786 | the result is two characters longer, starts and ends with a double quote, and unquoting gives back the value |
| Expressions.QuoteNotEscaped | Source/AtlusScriptLibrary/FlowScriptLanguage/Decompiler/CompilationUnitWriter.cs:783-786 | an embedded double quote is written unescaped |
| Expressions.BinarySymbolRoundTrip | Source/AtlusScriptLibrary/FlowScriptLanguage/Decompiler/CompilationUnitWriter.cs:423-506 | each of the seventeen binary operator symbols reads back as its own operator |
| Expressions.BinarySymbolInjective | Source/AtlusScriptLibrary/FlowScriptLanguage/Decompiler/CompilationUnitWriter.cs:423-506 | two binary operators share a symbol only if they are the same operator |
| Expressions.UnarySymbolRoundTrip | Source/AtlusScriptLibrary/FlowScriptLanguage/Decompiler/CompilationUnitWriter.cs:554-588 | the symbol together with the side of the operand it is written on identifies the unary operator |
| Expressions.ExprText | Source/AtlusScriptLibrary/FlowScriptLanguage/Decompiler/CompilationUnitWriter.cs:413-421 | a binary operator outside the assignment family starts with `(` and ends with `)` |
| Expressions.RenderExprWritesText | Source/AtlusScriptLibrary/FlowScriptLanguage/Decompiler/CompilationUnitWriter.cs:509-588 | the visit of any expression, one write at a time, appends exactly the expression's reference text |
| Expressions.RenderCallWritesText | Source/AtlusScriptLibrary/FlowScriptLanguage/Decompiler/CompilationUnitWriter.cs:390-410 | a call writes the callee, then `()` with no arguments, or the arguments joined by `, ` in parentheses |
| Expressions.RenderBinaryWritesText | Source/AtlusScriptLibrary/FlowScriptLanguage/Decompiler/CompilationUnitWriter.cs:413-421 | a binary operator writes the left operand, the operator with a space either side, and the right operand; a non-assignment is wrapped in parentheses |
| Expressions.RenderArgumentsWritesText | Source/AtlusScriptLibrary/FlowScriptLanguage/Decompiler/CompilationUnitWriter.cs:401-406 | the argument loop writes the arguments separated by `, `, with no separator after the last |
| Expressions.RenderParameterList | Source/AtlusScriptLibrary/FlowScriptLanguage/Decompiler/CompilationUnitWriter.cs:706-714 | the parameter loop writes `type name` pairs separated by `, ` |
| Expressions.WriteParameters | Source/AtlusScriptLibrary/FlowScriptLanguage/Decompiler/CompilationUnitWriter.cs:697-717 | a parameter list is its parameters in one pair of parentheses, which is `()` when there are none |
| Expressions.IfConditionParenthesisedOnce | Source/AtlusScriptLibrary/FlowScriptLanguage/Decompiler/CompilationUnitWriter.cs:331-334 | an if condition sits in exactly one outer pair of parentheses, and the if adds none exactly when the condition brings its own |
| Literals.Digits | Source/AtlusScriptLibrary/FlowScriptLanguage/Decompiler/CompilationUnitWriter.cs:729 | the digits of a number form a digit string of the base, with no leading zero |
| Literals.DigitsRoundTrip | Source/AtlusScriptLibrary/FlowScriptLanguage/Decompiler/CompilationUnitWriter.cs:729 | the digit string denotes the number it was made from |
| Literals.PadLeft | Source/AtlusScriptLibrary/FlowScriptLanguage/Decompiler/CompilationUnitWriter.cs:748-752 | padding gives at least the width, keeps the digits at the end and fills the front with `0` |
| Literals.FitsInShortRange | Source/AtlusScriptLibrary/FlowScriptLanguage/Decompiler/CompilationUnitWriter.cs:760-763 | because of the 32-bit wrap-around, the short test holds exactly below 0x8000 or from 0xFFFF8000 on |
| Literals.HexWidthByBits | Source/AtlusScriptLibrary/FlowScriptLanguage/Decompiler/CompilationUnitWriter.cs:745-769 | the width is 2 up to 0xFF, otherwise 4 in the short range, otherwise 8 |
| Literals.HexWidthRule | Source/AtlusScriptLibrary/FlowScriptLanguage/Decompiler/CompilationUnitWriter.cs:745-769 | the same width rule, stated on the number the bits denote |
| Literals.HexTextShape | Source/AtlusScriptLibrary/FlowScriptLanguage/Decompiler/CompilationUnitWriter.cs:745-753 | a hex literal is `0x` followed by upper-case hex digits that denote the value |
| Literals.HexTextLength | Source/AtlusScriptLibrary/FlowScriptLanguage/Decompiler/CompilationUnitWriter.cs:745-769 | a hex literal has 2 digits up to 0xFF, 4 below 0x8000, and 8 from 0x8000 on, the top range included |
| Literals.FlagBit | Source/AtlusScriptLibrary/FlowScriptLanguage/Decompiler/CompilationUnitWriter.cs:755-758 | a value that passes the hex test is a single bit at position 4 or above |
| Literals.UIntHexDecision | Source/AtlusScriptLibrary/FlowScriptLanguage/Decompiler/CompilationUnitWriter.cs:721-758 | a uint is written in hex exactly when it is a single bit at position 4 to 31 |
| Literals.IntHexDecision | Source/AtlusScriptLibrary/FlowScriptLanguage/Decompiler/CompilationUnitWriter.cs:733-743 | an int is written in hex exactly when it is a single bit at position 4 to 30, so a negative int is always decimal and starts with `-` |
| Literals.DecimalRoundTrip | Source/AtlusScriptLibrary/FlowScriptLanguage/Decompiler/CompilationUnitWriter.cs:741 | the decimal text of any integer reads back as that integer |
| Literals.UIntLiteralRoundTrip | Source/AtlusScriptLibrary/FlowScriptLanguage/Decompiler/CompilationUnitWriter.cs:721-731 | whichever form is chosen, a uint literal reads back as its value |
| Literals.IntLiteralRoundTrip | Source/AtlusScriptLibrary/FlowScriptLanguage/Decompiler/CompilationUnitWriter.cs:733-743 | whichever form is chosen, an int literal reads back as its signed value |
| Literals.HexWidthExamples | Source/AtlusScriptLibrary/FlowScriptLanguage/Decompiler/CompilationUnitWriter.cs:745-753 | 0x10 prints as `0x10`, 256 as `0x0100` and 0x8000 as `0x00008000` |
| Literals.DecimalExamples | Source/AtlusScriptLibrary/FlowScriptLanguage/Decompiler/CompilationUnitWriter.cs:733-743 | 17 prints in decimal, and the int with bit pattern 0xFFFFFFF0 prints as `-16` |
| Renderer.WriteComment | Source/AtlusScriptLibrary/FlowScriptLanguage/Decompiler/CompilationUnitWriter.cs:665-679 | a one-line comment becomes an indented `// ` line that ends the line. A multi-line one is the indentation, `/* `, the content, the indentation again and ` /*`, and leaves the line open |
| Renderer.RenderComment | Source/AtlusScriptLibrary/FlowScriptLanguage/Decompiler/CompilationUnitWriter.cs:244-256 | an inline comment is indented and closed by ` */` on the same line, which is left open. Any other comment is written exactly as the comment writer writes it: a `// ` line, or the ` /*`-terminated block |
| Renderer.RenderReturn | Source/AtlusScriptLibrary/FlowScriptLanguage/Decompiler/CompilationUnitWriter.cs:287-303 | a valued return never fails, and always writes the indentation, `return`, the value, `;` and a line terminator. A bare return fails exactly when there is no current procedure, the procedure has no body, or its body is empty. Otherwise it writes nothing exactly when it is the last statement of the current body, and `return`, the value, and `;` with a line terminator when it does write |
| Renderer.WriteLabel | Source/AtlusScriptLibrary/FlowScriptLanguage/Decompiler/CompilationUnitWriter.cs:382-387 | a label is its escaped name, `:` and a line terminator |
| Renderer.OpenBlock | Source/AtlusScriptLibrary/FlowScriptLanguage/Decompiler/CompilationUnitWriter.cs:262-267 | an open line is ended first, then `{` is written on a line at the current level, and the level goes up by one |
| Renderer.CloseBlock | Source/AtlusScriptLibrary/FlowScriptLanguage/Decompiler/CompilationUnitWriter.cs:271-274 | the line is broken first only when the level is above 0 and the line is open, and then an indented `}` line is written. So at level 0 the `}` is glued to an open line, and no blank line is added when the line is already closed. Above level 0, after text that has a truthful line flag, the `}` starts a line of its own |
| Renderer.RenderStatement | Source/AtlusScriptLibrary/FlowScriptLanguage/Decompiler/CompilationUnitWriter.cs:222-242 | a statement leaves the tab level as it found it |
| Renderer.RenderCompound | Source/AtlusScriptLibrary/FlowScriptLanguage/Decompiler/CompilationUnitWriter.cs:258-275 | a compound statement leaves the tab level as it found it |
| Renderer.RenderIf | Source/AtlusScriptLibrary/FlowScriptLanguage/Decompiler/CompilationUnitWriter.cs:325-371 | an if statement leaves the tab level as it found it |
| Renderer.RenderDeclaration | Source/AtlusScriptLibrary/FlowScriptLanguage/Decompiler/CompilationUnitWriter.cs:170-220 | a declaration leaves the tab level as it found it |
| RenderInvariants.StatementFollows | Source/AtlusScriptLibrary/FlowScriptLanguage/Decompiler/CompilationUnitWriter.cs:222-242 | writing any statement only appends text, keeps the level, and keeps the line flag truthful |
| RenderInvariants.CompoundFollows | Source/AtlusScriptLibrary/FlowScriptLanguage/Decompiler/CompilationUnitWriter.cs:258-275 | the same holds for a compound statement |
| RenderInvariants.IfFollows | Source/AtlusScriptLibrary/FlowScriptLanguage/Decompiler/CompilationUnitWriter.cs:325-371 | the same holds for an if statement with or without an else |
| RenderInvariants.ProcedureFollows | Source/AtlusScriptLibrary/FlowScriptLanguage/Decompiler/CompilationUnitWriter.cs:170-182 | the same holds for a procedure declaration |
| RenderInvariants.CompoundShape | Source/AtlusScriptLibrary/FlowScriptLanguage/Decompiler/CompilationUnitWriter.cs:258-275 | a compound starts with a fresh line if needed and a `{` line, ends with a `}` line at the starting level, and finishes at the start of a line. Inside another block its `}` always starts its own line |
| RenderInvariants.BlockShape | Source/AtlusScriptLibrary/FlowScriptLanguage/Decompiler/CompilationUnitWriter.cs:262-274 | the braces around any appended content have that shape |
| RenderEquivalence.StatementAgree | Source/AtlusScriptLibrary/FlowScriptLanguage/Decompiler/CompilationUnitWriter.cs:258-260 | two writers that differ only in their suppression stacks, and in the size of a non-empty current body, write the same text and fail alike |
| RenderEquivalence.CompoundAgree | Source/AtlusScriptLibrary/FlowScriptLanguage/Decompiler/CompilationUnitWriter.cs:258-275 | the same holds for a compound statement |
| RenderEquivalence.SuppressionStacksUnread | Source/AtlusScriptLibrary/FlowScriptLanguage/Decompiler/CompilationUnitWriter.cs:339-367 | replacing both suppression stacks with any others changes nothing that is written |
| ReturnElision.StatementKeeps | Source/AtlusScriptLibrary/FlowScriptLanguage/Decompiler/CompilationUnitWriter.cs:170-172 | a statement that declares no procedure leaves the current procedure and the visit count unchanged |
| ReturnElision.PositionOnlyForBareReturn | Source/AtlusScriptLibrary/FlowScriptLanguage/Decompiler/CompilationUnitWriter.cs:287-303 | whether a statement is last in the current body changes the output only for a bare return |
| ReturnElision.BareReturnAtEnd | Source/AtlusScriptLibrary/FlowScriptLanguage/Decompiler/CompilationUnitWriter.cs:289-296 | a bare return at the end of a non-empty current body writes nothing and changes nothing |
| ReturnElision.AppendOne | Source/AtlusScriptLibrary/FlowScriptLanguage/Decompiler/CompilationUnitWriter.cs:287-296 | under three conditions: the body `ss` is non-empty, its last statement is not a bare return, and the two writers differ only in state the writer never reads (the suppression stacks and the size of the current body). Then the loop over `ss` followed by one more statement writes what the loop over `ss` alone writes, followed by that statement in last position. It fails exactly as the loop over `ss` does when that fails. Without the second condition the claim is false: a bare return that is last of `ss` is dropped, but it is written once another statement follows |
| ReturnElision.BodyReturnElided | Source/AtlusScriptLibrary/FlowScriptLanguage/Decompiler/CompilationUnitWriter.cs:287-296 | the body `ss` must be non-empty, must not end in a bare return, and must declare no nested procedure. The current procedure is the one this body belongs to, and its body has as many statements as `ss`. Then the body followed by a bare return writes the same text, or fails the same way, as the body alone |
| ReturnElision.TrailingReturnElided | Source/AtlusScriptLibrary/FlowScriptLanguage/Decompiler/CompilationUnitWriter.cs:287-296 | a procedure whose body ends in a bare return is written exactly like the procedure without that return |
| StatementShapes.WhileHeaderText | Source/AtlusScriptLibrary/FlowScriptLanguage/Decompiler/CompilationUnitWriter.cs:373-380 | a while loop opens with `while (`, the condition and `)` on the current line |
| StatementShapes.ForHeaderText | Source/AtlusScriptLibrary/FlowScriptLanguage/Decompiler/CompilationUnitWriter.cs:305-317 | a for loop starts a new indented line, then writes `for (`, the three parts separated by `; `, and `)` |
| StatementShapes.IfHeaderText | Source/AtlusScriptLibrary/FlowScriptLanguage/Decompiler/CompilationUnitWriter.cs:325-334 | an if opens with `if ` and the condition, parenthesised when it does not bring its own parentheses |
| StatementShapes.IfHeaderParenthesisedOnce | Source/AtlusScriptLibrary/FlowScriptLanguage/Decompiler/CompilationUnitWriter.cs:325-334 | either way the if header reads `if (`, the bare condition, `)` |
| StatementShapes.SwitchHeaderText | Source/AtlusScriptLibrary/FlowScriptLanguage/Decompiler/CompilationUnitWriter.cs:89-97 | a switch opens with `switch (`, the value and `)`, followed by a `{` line at the current level |
| StatementShapes.SwitchFooterText | Source/AtlusScriptLibrary/FlowScriptLanguage/Decompiler/CompilationUnitWriter.cs:104-106 | a switch closes with a line terminator, a `}` line and an empty line |
| StatementShapes.WrapperShape | Source/AtlusScriptLibrary/FlowScriptLanguage/Decompiler/CompilationUnitWriter.cs:222-242 | every statement except a return or a comment starts with the indentation. Every terminated kind ends with `;` and a line terminator. A return or a comment gets nothing from the wrapper, and the other unterminated kinds get only the indentation |
| StatementShapes.IfStartsWithKeyword | Source/AtlusScriptLibrary/FlowScriptLanguage/Decompiler/CompilationUnitWriter.cs:325-328 | the output of an if statement starts with `if ` |
| StatementShapes.ElseIfFlattened | Source/AtlusScriptLibrary/FlowScriptLanguage/Decompiler/CompilationUnitWriter.cs:350-369 | an else body that is exactly one if gives `else if` on one line. Any other else body puts its `{` on the next line |
| RenderExamples.ReturnHasNoSpace | Source/AtlusScriptLibrary/FlowScriptLanguage/Decompiler/CompilationUnitWriter.cs:297-302 | `return x` is written as `returnx;` |
| RenderExamples.BareReturnOutsideProcedure | Source/AtlusScriptLibrary/FlowScriptLanguage/Decompiler/CompilationUnitWriter.cs:289-291 | a bare return with no current procedure is an error |
| RenderExamples.TopLevelBraceIsGlued | Source/AtlusScriptLibrary/FlowScriptLanguage/Decompiler/CompilationUnitWriter.cs:271-274 | at level 0 the closing brace lands on the line of a preceding inline comment |
| Unit.BannerWritten | Source/AtlusScriptLibrary/FlowScriptLanguage/Decompiler/CompilationUnitWriter.cs:115-119 | a banner is an empty line, three `//` lines around the title, and another empty line |
| Unit.WriteImport | Source/AtlusScriptLibrary/FlowScriptLanguage/Decompiler/CompilationUnitWriter.cs:656-663 | an import is `import(`, the quoted file name and `);` on a line of its own |
| Unit.ImportNameReadsBack | Source/AtlusScriptLibrary/FlowScriptLanguage/Decompiler/CompilationUnitWriter.cs:656-663 | the file name reads back from between the parentheses of its import line |
| Unit.ImportsWritten | Source/AtlusScriptLibrary/FlowScriptLanguage/Decompiler/CompilationUnitWriter.cs:122-125 | the import loop writes one import line per file, in order |
| Unit.WriteImports | Source/AtlusScriptLibrary/FlowScriptLanguage/Decompiler/CompilationUnitWriter.cs:112-126 | with no imports nothing is written, and with imports the block ends at the start of a line |
| Unit.ImportsBlock | Source/AtlusScriptLibrary/FlowScriptLanguage/Decompiler/CompilationUnitWriter.cs:112-126 | with imports, the block is the imports banner followed by the import lines |
| Unit.UnitStartsWithImports | Source/AtlusScriptLibrary/FlowScriptLanguage/Decompiler/CompilationUnitWriter.cs:110-126 | a unit with imports starts with its import block |
| Unit.FunctionStepText | Source/AtlusScriptLibrary/FlowScriptLanguage/Decompiler/CompilationUnitWriter.cs:134-166 | a function prototype is preceded by the prototypes banner exactly when no function came before. It is written as `function(<index in hex>)`, the type, the name and the parameters, and ends with `;` |
| Unit.VariableStepText | Source/AtlusScriptLibrary/FlowScriptLanguage/Decompiler/CompilationUnitWriter.cs:144-166 | a script-level variable is preceded by the variables banner exactly when no variable came before, and ends with `;` |
| Unit.ProcedureStepPlain | Source/AtlusScriptLibrary/FlowScriptLanguage/Decompiler/CompilationUnitWriter.cs:154-166 | a procedure gets no banner and no `;` of its own |
| Unit.ProcedureEndsLine | Source/AtlusScriptLibrary/FlowScriptLanguage/Decompiler/CompilationUnitWriter.cs:178-181 | a procedure ends at the start of a line, after `;` or after its closing brace |
| Unit.BeforeStep | Source/AtlusScriptLibrary/FlowScriptLanguage/Decompiler/CompilationUnitWriter.cs:134-152 | after a declaration, "a function came before" holds exactly when it held already or this one is a function; the same holds for variables |
| Unit.DeclarationsAppend | Source/AtlusScriptLibrary/FlowScriptLanguage/Decompiler/CompilationUnitWriter.cs:131-167 | the declaration loop only appends to what is already written |
| Unit.UnitEndsLine | Source/AtlusScriptLibrary/FlowScriptLanguage/Decompiler/CompilationUnitWriter.cs:110-168 | a written unit ends at level 0, at the start of a line |
| Unit.RenderUnit | Source/AtlusScriptLibrary/FlowScriptLanguage/Decompiler/CompilationUnitWriter.cs:110-168 | a written unit ends at tab level 0 |
| Unit.WriteTopLevel | Source/AtlusScriptLibrary/FlowScriptLanguage/Decompiler/CompilationUnitWriter.cs:133-166 | suppose the loop's two flags record whether a function and a variable came before declaration `i`. Then one turn leaves them recording that for `i + 1`. The turn either fails with the same error as the flag-free definition of the declarations from `i` on, or leaves a writer from which the declarations from `i + 1` on write exactly what the declarations from `i` on write |
| Unit.RenderCompilationUnit | Source/AtlusScriptLibrary/FlowScriptLanguage/Decompiler/CompilationUnitWriter.cs:110-168 | the unit writer's loop, with its two banner flags, produces exactly the flag-free definition of the unit's output |

## Left out

- File and stream plumbing is not modelled: the `Write(path)` and `Write(writer)` entry points, and `Dispose` with writer ownership (lines 14-24 and 788-792). The platform line terminator is the single character `\n`.
- Float literals (lines 533-536 and 772-775) are not modelled. They print the node's own text and involve floating-point formatting that is not part of this model.
- Enum declarations and enum values (lines 52-80) are not modelled. The writer marks them as unimplemented.
- The modifier keyword dictionary is a parameter `kw`: a total function from modifier kind to keyword. A kind missing from the dictionary would throw, and that is not modelled.
- The syntax-node base visitor is not part of this model. Its dispatch is replaced by an exhaustive match, with the assumptions stated above.
- `int.ToString` and `uint.ToString` are taken as plain decimal digits, with a leading `-` for negative values. Culture-specific formatting is not modelled.
- Parsing the output back is not modelled, because the parser is not part of this model. Round trips are stated only for literals, identifiers, quoted strings and operator symbols, against small reader functions defined here.
- Null child nodes are modelled only where the writer tests for null. Those fields are optional in the model: the if body and the else body (lines 336-347), the procedure body (line 178), the variable modifier, its index and the initializer (lines 199-217), and the return value (line 289). Every other child is dereferenced without a check, so the model makes it non-optional and does not model the exception a null would raise.
- The three ways a bare return can throw (lines 289-291) are modelled as errors. These are a null current procedure, a null body and an empty body, and none of them is checked by the writer. The current procedure and the body are dereferenced directly, and `Last()` throws on an empty body.
- The `seenFirstProcedure` flag (lines 130 and 154-157) is set but never read, so it is not modelled.
- The two suppression stacks are pushed and popped as in the source, but never read. RenderEquivalence proves that they cannot change the output.
- Renderer.RenderStatement, Renderer.RenderCompound, Renderer.RenderIf, Renderer.RenderDeclaration and Unit.RenderUnit: their own contracts only state that the tab level is unchanged. What they write is stated by the lemmas of RenderInvariants, StatementShapes, RenderEquivalence and ReturnElision.
- ReturnElision.TrailingReturnElided: it is proved only under three conditions. The body must have other statements, the last of them must not itself be a bare return, and the body must declare no nested procedure. A nested procedure would replace the current procedure before the return is reached.

=== FILE: bitbounds.dfy ===
/** Unsigned comparisons of a 32-bit value with the constants the literal
    formatter tests against agree with the same comparisons on the number
    it denotes. Each direction is its own small fact. */
module BitBounds {

  /** The number a value denotes converts back to the value. */
  lemma RoundTrip(v: bv32)
    ensures (v as int) as bv32 == v
  {
  }

  lemma AtMostByte(v: bv32)
    ensures v <= 0xFF <==> v as int <= 0xFF
  {
  }

  lemma BelowShortUp(v: bv32)
    ensures v < 0x8000 ==> v as int < 0x8000
  {
    if v < 0x8000 {
      RoundTrip(v);
    }
  }

  lemma BelowShortDown(v: bv32)
    ensures v as int < 0x8000 ==> v < 0x8000
  {
  }

  lemma BelowShort(v: bv32)
    ensures v < 0x8000 <==> v as int < 0x8000
  {
    BelowShortUp(v);
    BelowShortDown(v);
  }

  lemma BelowTopUp(v: bv32)
    ensures v < 0xFFFF_8000 ==> v as int < 0xFFFF_8000
  {
    if v < 0xFFFF_8000 {
      if v < 0x8000_0000 {
        BelowSignBitUp(v);
      } else {
        // the value is the sign bit plus a value below it
        var u := v - 0x8000_0000;
        BelowSignBitUp(u);
        RoundTrip(v);
        RoundTrip(u);
        assert v as int == u as int + 0x8000_0000;
      }
    }
  }

  lemma BelowTopDown(v: bv32)
    ensures v >= 0xFFFF_8000 ==> v as int >= 0xFFFF_8000
  {
  }

  lemma BelowTop(v: bv32)
    ensures v < 0xFFFF_8000 <==> v as int < 0xFFFF_8000
  {
    BelowTopUp(v);
    BelowTopDown(v);
  }

  lemma Below2To32(v: bv32)
    ensures v as int < 0x1_0000_0000
  {
  }

  lemma BelowSignBitUp(v: bv32)
    ensures v < 0x8000_0000 ==> v as int < 0x8000_0000
  {
    if v < 0x8000_0000 {
      RoundTrip(v);
    }
  }

  lemma BelowSignBitDown(v: bv32)
    ensures v as int < 0x8000_0000 ==> v < 0x8000_0000
  {
  }

  lemma BelowSignBit(v: bv32)
    ensures v < 0x8000_0000 <==> v as int < 0x8000_0000
  {
    BelowSignBitUp(v);
    BelowSignBitDown(v);
  }
}

=== FILE: elision.dfy ===
/** Return elision: a bare return at the end of a procedure body is not
    written, so a body that ends in one renders exactly like the body
    without it, as long as nothing inside the body makes another procedure
    the current one. */
module ReturnElision {
  import opened Wrappers
  import opened Syntax
  import opened Identifiers
  import opened OutputSink
  import opened Expressions
  import opened Renderer
  import opened RenderEquivalence

  // ---- Statements that declare no procedure ----

  predicate NoProcedureIn(st: Stmt)
    decreases st, 1
  {
    match st
    case Compound(ss) => NoProcedureInAll(ss)
    case If(_, body, elseBody) =>
      (body.Block? ==> NoProcedureInAll(body.stmts)) && (elseBody.Block? ==> NoProcedureInAll(elseBody.stmts))
    case While(_, body) => NoProcedureInAll(body)
    case For(_, _, _, body) => NoProcedureInAll(body)
    case Switch(_, labels) => NoProcedureInLabels(labels)
    case Declaration(d) => !d.Procedure?
    case _ => true
  }

  predicate NoProcedureInAll(ss: seq<Stmt>)
    decreases ss, 0
  {
    forall i :: 0 <= i < |ss| ==> NoProcedureIn(ss[i])
  }

  predicate NoProcedureInLabels(labels: seq<SwitchLabel>)
    decreases labels, 0
  {
    forall i :: 0 <= i < |labels| ==> NoProcedureInAll(labels[i].labelBody)
  }

  /** The writer's procedure state is the same in both. */
  predicate SameProcedure(a: Writer, b: Writer) {
    a.procedure == b.procedure && a.visited == b.visited
  }

  // ---- Only a procedure declaration changes the current procedure ----

  lemma {:induction false} StatementKeeps(st: Stmt, pos: Position, w: Writer, kw: ModifierKind -> string)
    requires NoProcedureIn(st)
    ensures RenderStatement(st, pos, w, kw).Ok? ==> SameProcedure(w, RenderStatement(st, pos, w, kw).value)
    decreases st, 4
  {
    var w1 := if SelfIndenting(st) then w else WithSink(w, WriteIndentation(w.sink));
    KindKeeps(st, pos, w1, kw);
    var r := RenderKind(st, pos, w1, kw);
    if r.Ok? {
      var fin := if HasTerminator(st) then WithSink(r.value, WriteStatementEnd(r.value.sink)) else r.value;
      assert RenderStatement(st, pos, w, kw) == Ok(fin);
    }
  }

  lemma {:induction false} KindKeeps(st: Stmt, pos: Position, w: Writer, kw: ModifierKind -> string)
    requires NoProcedureIn(st)
    ensures RenderKind(st, pos, w, kw).Ok? ==> SameProcedure(w, RenderKind(st, pos, w, kw).value)
    decreases st, 3
  {
    if st.Compound? {
      CompoundKeeps(st.stmts, None, w, kw);
    } else if st.If? {
      IfKeeps(st, w, kw);
    } else if st.While? || st.For? {
      var w1 :=
        if st.While? then WithSink(w, WhileHeader(w.sink, st.cond))
        else WithSink(w, ForHeader(w.sink, st.init, st.cond, st.afterLoop));
      assert RenderKind(st, pos, w, kw) == RenderCompound(st.loopBody, None, w1, kw);
      CompoundKeeps(st.loopBody, None, w1, kw);
    } else if st.Switch? {
      LabelsKeep(st.labels, 0, WithSink(w, SwitchHeader(w.sink, st.switchOn)), kw);
    } else {
      LeafKeeps(st, pos, w, kw);
    }
  }

  lemma LeafKeeps(st: Stmt, pos: Position, w: Writer, kw: ModifierKind -> string)
    requires NoProcedureIn(st)
    requires !(st.Compound? || st.If? || st.While? || st.For? || st.Switch?)
    ensures RenderKind(st, pos, w, kw).Ok? ==> SameProcedure(w, RenderKind(st, pos, w, kw).value)
  {
  }

  lemma {:induction false} CompoundKeeps(ss: seq<Stmt>, owner: Option<nat>, w: Writer, kw: ModifierKind -> string)
    requires NoProcedureInAll(ss)
    ensures RenderCompound(ss, owner, w, kw).Ok? ==> SameProcedure(w, RenderCompound(ss, owner, w, kw).value)
    decreases ss, 2
  {
    StatementsKeep(ss, 0, owner, w.(sink := OpenBlock(w.sink), compoundFlags := PopIfAny(w.compoundFlags)), kw);
  }

  lemma {:induction false} StatementsKeep(ss: seq<Stmt>, i: nat, owner: Option<nat>, w: Writer, kw: ModifierKind -> string)
    requires i <= |ss|
    requires NoProcedureInAll(ss)
    ensures RenderStatementsFrom(ss, i, owner, w, kw).Ok? ==> SameProcedure(w, RenderStatementsFrom(ss, i, owner, w, kw).value)
    decreases ss, 1, |ss| - i
  {
    if i < |ss| {
      var pos := if owner.Some? && i == |ss| - 1 then LastOfBody(owner.value) else Elsewhere;
      StatementKeeps(ss[i], pos, w, kw);
      var r := RenderStatement(ss[i], pos, w, kw);
      if r.Ok? {
        StatementsKeep(ss, i + 1, owner, r.value, kw);
      }
    }
  }

  lemma {:induction false} IfKeeps(st: Stmt, w: Writer, kw: ModifierKind -> string)
    requires st.If? && NoProcedureIn(st)
    ensures RenderIf(st, w, kw).Ok? ==> SameProcedure(w, RenderIf(st, w, kw).value)
    decreases st, 1
  {
    var w1 := WithSink(w, IfHeader(w.sink, st.cond));
    if st.elseBody.NoBlock? {
      if st.body.Block? {
        CompoundKeeps(st.body.stmts, None,
          w1.(compoundFlags := Push(w1.compoundFlags, false), ifFlags := Push(w1.ifFlags, false)), kw);
      }
    } else {
      var w2 := w1.(compoundFlags := Push(w1.compoundFlags, true));
      if st.body.Block? {
        CompoundKeeps(st.body.stmts, None, w2, kw);
      }
      var r3 := if st.body.Block? then RenderCompound(st.body.stmts, None, w2, kw) else Ok(w2);
      if r3.Ok? {
        ElseKeeps(st, r3.value, kw);
      }
    }
  }

  lemma {:induction false} ElseKeeps(st: Stmt, w: Writer, kw: ModifierKind -> string)
    requires st.If? && st.elseBody.Block? && NoProcedureIn(st)
    ensures RenderElse(st, w, kw).Ok? ==> SameProcedure(w, RenderElse(st, w, kw).value)
    decreases st, 0
  {
    var w1 := WithSink(w, WriteWithSeparator(WriteIndentation(w.sink), "else"));
    var es := st.elseBody.stmts;
    if |es| == 1 && es[0].If? {
      IfKeeps(es[0], w1.(ifFlags := Push(w1.ifFlags, true)), kw);
    } else {
      CompoundKeeps(es, None, w1.(ifFlags := Push(w1.ifFlags, false)), kw);
    }
  }

  lemma {:induction false} LabelsKeep(labels: seq<SwitchLabel>, i: nat, w: Writer, kw: ModifierKind -> string)
    requires i <= |labels|
    requires NoProcedureInLabels(labels)
    ensures RenderLabels(labels, i, w, kw).Ok? ==> SameProcedure(w, RenderLabels(labels, i, w, kw).value)
    decreases labels, 1, |labels| - i
  {
    if i < |labels| {
      var w1 := if labels[i].CaseLabel? then WithSink(w, Write(w.sink, ExprText(labels[i].condition))) else w;
      StatementsKeep(labels[i].labelBody, 0, None, w1, kw);
      var r := RenderStatementsFrom(labels[i].labelBody, 0, None, w1, kw);
      if r.Ok? {
        LabelsKeep(labels, i + 1, r.value, kw);
      }
    }
  }

  // ---- Position only matters to a bare return ----

  lemma PositionOnlyForBareReturn(st: Stmt, p: Position, q: Position, w: Writer, kw: ModifierKind -> string)
    requires st != Return(None)
    ensures RenderStatement(st, p, w, kw) == RenderStatement(st, q, w, kw)
  {
    var w1 := if SelfIndenting(st) then w else WithSink(w, WriteIndentation(w.sink));
    KindPositionFree(st, p, q, w1, kw);
  }

  lemma KindPositionFree(st: Stmt, p: Position, q: Position, w: Writer, kw: ModifierKind -> string)
    requires st != Return(None)
    ensures RenderKind(st, p, w, kw) == RenderKind(st, q, w, kw)
  {
    if st.Return? {
      assert RenderKind(st, p, w, kw) == RenderReturn(st.value, p, w);
      assert RenderKind(st, q, w, kw) == RenderReturn(st.value, q, w);
    } else if st.Compound? || st.If? || st.While? || st.For? || st.Switch? || st.Declaration? {
    } else {
    }
  }

  /** A bare return in last position of the current procedure's non-empty
      body writes nothing. */
  lemma BareReturnAtEnd(w: Writer, kw: ModifierKind -> string)
    requires w.procedure.Some? && w.procedure.value.hasBody && w.procedure.value.bodyCount > 0
    ensures RenderStatement(Return(None), LastOfBody(w.procedure.value.serial), w, kw) == Ok(w)
  {
    assert RenderKind(Return(None), LastOfBody(w.procedure.value.serial), w, kw) == Ok(w);
  }

  /** One turn of the statement loop. */
  lemma StatementsStep(ss: seq<Stmt>, i: nat, owner: Option<nat>, pos: Position, w: Writer, kw: ModifierKind -> string)
    requires i < |ss|
    requires pos == if owner.Some? && i == |ss| - 1 then LastOfBody(owner.value) else Elsewhere
    ensures var r := RenderStatement(ss[i], pos, w, kw);
      RenderStatementsFrom(ss, i, owner, w, kw) ==
        if r.Err? then Err(r.error) else RenderStatementsFrom(ss, i + 1, owner, r.value, kw)
  {
  }

  /** The statement loop over `ss` followed by one more statement `x`
      agrees with the loop over `ss` alone, followed by `x` in the last
      position. */
  lemma {:induction false} AppendOne(ss: seq<Stmt>, x: Stmt, i: nat, serial: nat, a: Writer, b: Writer, kw: ModifierKind -> string)
    requires 0 < |ss| && i <= |ss|
    requires ss[|ss| - 1] != Return(None)
    requires Interchangeable(a, b)
    ensures
      var r2 := RenderStatementsFrom(ss, i, Some(serial), b, kw);
      var r1 := RenderStatementsFrom(ss + [x], i, Some(serial), a, kw);
      r2.Ok? ==> Agree(r1, RenderStatement(x, LastOfBody(serial), r2.value, kw))
    ensures RenderStatementsFrom(ss, i, Some(serial), b, kw).Err? ==>
      RenderStatementsFrom(ss + [x], i, Some(serial), a, kw) == RenderStatementsFrom(ss, i, Some(serial), b, kw)
    decreases |ss| - i
  {
    var xs := ss + [x];
    assert xs[|ss|] == x;
    if i == |ss| {
      StatementsStep(xs, i, Some(serial), LastOfBody(serial), a, kw);
      StatementAgree(x, LastOfBody(serial), a, b, kw);
      var ra := RenderStatement(x, LastOfBody(serial), a, kw);
      if ra.Ok? {
        assert RenderStatementsFrom(xs, i + 1, Some(serial), ra.value, kw) == Ok(ra.value);
      }
    } else {
      assert xs[i] == ss[i];
      var pb := if i == |ss| - 1 then LastOfBody(serial) else Elsewhere;
      StatementsStep(xs, i, Some(serial), Elsewhere, a, kw);
      StatementsStep(ss, i, Some(serial), pb, b, kw);
      if i == |ss| - 1 {
        PositionOnlyForBareReturn(ss[i], Elsewhere, pb, a, kw);
      }
      StatementAgree(ss[i], pb, a, b, kw);
      var ra := RenderStatement(ss[i], pb, a, kw);
      var rb := RenderStatement(ss[i], pb, b, kw);
      if ra.Ok? {
        AppendOne(ss, x, i + 1, serial, ra.value, rb.value, kw);
      }
    }
  }

  /** The compound form of the elision: the body of the current procedure
      with a trailing bare return renders like the body without it. */
  lemma BodyReturnElided(ss: seq<Stmt>, serial: nat, a: Writer, b: Writer, kw: ModifierKind -> string)
    requires 0 < |ss| && ss[|ss| - 1] != Return(None)
    requires NoProcedureInAll(ss)
    requires Interchangeable(a, b)
    requires b.procedure == Some(ProcedureInfo(serial, true, |ss|))
    ensures Agree(RenderCompound(ss + [Return(None)], Some(serial), a, kw), RenderCompound(ss, Some(serial), b, kw))
  {
    var a0 := a.(sink := OpenBlock(a.sink), compoundFlags := PopIfAny(a.compoundFlags));
    var b0 := b.(sink := OpenBlock(b.sink), compoundFlags := PopIfAny(b.compoundFlags));
    AppendOne(ss, Return(None), 0, serial, a0, b0, kw);
    var rb := RenderStatementsFrom(ss, 0, Some(serial), b0, kw);
    if rb.Ok? {
      StatementsKeep(ss, 0, Some(serial), b0, kw);
      BareReturnAtEnd(rb.value, kw);
    }
  }

  /** A procedure whose body ends in a bare return is written exactly like
      the same procedure without that return. The body must have other
      statements, the last of them not itself a bare return, and declare
      no procedure of its own (which would make that one current). */
  lemma TrailingReturnElided(returnType: string, name: string, ps: seq<Parameter>, ss: seq<Stmt>,
                             w: Writer, kw: ModifierKind -> string)
    requires 0 < |ss| && ss[|ss| - 1] != Return(None)
    requires NoProcedureInAll(ss)
    ensures Agree(RenderDeclaration(Procedure(returnType, name, ps, Block(ss + [Return(None)])), w, kw),
                  RenderDeclaration(Procedure(returnType, name, ps, Block(ss)), w, kw))
  {
    var serial := w.visited;
    var s := ProcedureHeader(w.sink, returnType, name, ps);
    var da := Procedure(returnType, name, ps, Block(ss + [Return(None)]));
    var db := Procedure(returnType, name, ps, Block(ss));
    ProcedureWithBody(da, w, kw);
    ProcedureWithBody(db, w, kw);
    BodyReturnElided(ss, serial, WithSink(EnterProcedure(w, da.procBody), s), WithSink(EnterProcedure(w, db.procBody), s), kw);
  }
}

=== FILE: equivalence.dfy ===
/** What the output does not depend on. The two suppression stacks are
    pushed and popped but never read, so they cannot change a single
    character; of the current procedure only its serial, whether it has a
    body and whether that body is empty are ever consulted. */
module RenderEquivalence {
  import opened Wrappers
  import opened Syntax
  import opened Identifiers
  import opened OutputSink
  import opened Expressions
  import opened Renderer

  /** Two views of the current procedure a bare return cannot tell apart. */
  predicate SameProcedureView(a: Option<ProcedureInfo>, b: Option<ProcedureInfo>) {
    || (a.None? && b.None?)
    || (&& a.Some? && b.Some?
        && a.value.serial == b.value.serial
        && a.value.hasBody == b.value.hasBody
        && (a.value.bodyCount == 0 <==> b.value.bodyCount == 0))
  }

  /** Writers that differ at most in their suppression stacks and in the
      size of a non-empty current body. */
  predicate Interchangeable(a: Writer, b: Writer) {
    a.sink == b.sink && a.visited == b.visited && SameProcedureView(a.procedure, b.procedure)
  }

  /** Both fail with the same error, or both succeed interchangeably. */
  predicate Agree(r1: Outcome, r2: Outcome) {
    if r1.Ok? then r2.Ok? && Interchangeable(r1.value, r2.value) else r2 == r1
  }

  lemma {:induction false} StatementAgree(st: Stmt, pos: Position, a: Writer, b: Writer, kw: ModifierKind -> string)
    requires Interchangeable(a, b)
    ensures Agree(RenderStatement(st, pos, a, kw), RenderStatement(st, pos, b, kw))
    decreases st, 4
  {
    var a1 := if SelfIndenting(st) then a else WithSink(a, WriteIndentation(a.sink));
    var b1 := if SelfIndenting(st) then b else WithSink(b, WriteIndentation(b.sink));
    KindAgree(st, pos, a1, b1, kw);
  }

  lemma {:induction false} KindAgree(st: Stmt, pos: Position, a: Writer, b: Writer, kw: ModifierKind -> string)
    requires Interchangeable(a, b)
    ensures Agree(RenderKind(st, pos, a, kw), RenderKind(st, pos, b, kw))
    decreases st, 3
  {
    if st.Compound? {
      CompoundAgree(st.stmts, None, a, b, kw);
    } else if st.If? {
      IfAgree(st, a, b, kw);
    } else if st.While? || st.For? {
      LoopAgree(st, pos, a, b, kw);
    } else if st.Switch? {
      SwitchAgree(st, pos, a, b, kw);
    } else if st.Declaration? {
      DeclarationAgree(st.decl, a, b, kw);
    } else {
      LeafAgree(st, pos, a, b, kw);
    }
  }

  lemma LeafAgree(st: Stmt, pos: Position, a: Writer, b: Writer, kw: ModifierKind -> string)
    requires Interchangeable(a, b)
    requires !(st.Compound? || st.If? || st.While? || st.For? || st.Switch? || st.Declaration?)
    ensures Agree(RenderKind(st, pos, a, kw), RenderKind(st, pos, b, kw))
  {
  }

  lemma {:induction false} LoopAgree(st: Stmt, pos: Position, a: Writer, b: Writer, kw: ModifierKind -> string)
    requires Interchangeable(a, b)
    requires st.While? || st.For?
    ensures Agree(RenderKind(st, pos, a, kw), RenderKind(st, pos, b, kw))
    decreases st, 2
  {
    var s1 :=
      if st.While? then WhileHeader(a.sink, st.cond)
      else ForHeader(a.sink, st.init, st.cond, st.afterLoop);
    assert RenderKind(st, pos, a, kw) == RenderCompound(st.loopBody, None, WithSink(a, s1), kw);
    assert RenderKind(st, pos, b, kw) == RenderCompound(st.loopBody, None, WithSink(b, s1), kw);
    CompoundAgree(st.loopBody, None, WithSink(a, s1), WithSink(b, s1), kw);
  }

  lemma {:induction false} SwitchAgree(st: Stmt, pos: Position, a: Writer, b: Writer, kw: ModifierKind -> string)
    requires Interchangeable(a, b)
    requires st.Switch?
    ensures Agree(RenderKind(st, pos, a, kw), RenderKind(st, pos, b, kw))
    decreases st, 2
  {
    var s1 := SwitchHeader(a.sink, st.switchOn);
    LabelsAgree(st.labels, 0, WithSink(a, s1), WithSink(b, s1), kw);
  }

  lemma {:induction false} CompoundAgree(ss: seq<Stmt>, owner: Option<nat>, a: Writer, b: Writer, kw: ModifierKind -> string)
    requires Interchangeable(a, b)
    ensures Agree(RenderCompound(ss, owner, a, kw), RenderCompound(ss, owner, b, kw))
    decreases ss, 2
  {
    var a0 := a.(sink := OpenBlock(a.sink), compoundFlags := PopIfAny(a.compoundFlags));
    var b0 := b.(sink := OpenBlock(b.sink), compoundFlags := PopIfAny(b.compoundFlags));
    StatementsAgree(ss, 0, owner, a0, b0, kw);
  }

  lemma {:induction false} StatementsAgree(ss: seq<Stmt>, i: nat, owner: Option<nat>, a: Writer, b: Writer, kw: ModifierKind -> string)
    requires i <= |ss|
    requires Interchangeable(a, b)
    ensures Agree(RenderStatementsFrom(ss, i, owner, a, kw), RenderStatementsFrom(ss, i, owner, b, kw))
    decreases ss, 1, |ss| - i
  {
    if i < |ss| {
      var pos := if owner.Some? && i == |ss| - 1 then LastOfBody(owner.value) else Elsewhere;
      StatementAgree(ss[i], pos, a, b, kw);
      var ra := RenderStatement(ss[i], pos, a, kw);
      var rb := RenderStatement(ss[i], pos, b, kw);
      if ra.Ok? {
        StatementsAgree(ss, i + 1, owner, ra.value, rb.value, kw);
      }
    }
  }

  lemma {:induction false} IfAgree(st: Stmt, a: Writer, b: Writer, kw: ModifierKind -> string)
    requires st.If?
    requires Interchangeable(a, b)
    ensures Agree(RenderIf(st, a, kw), RenderIf(st, b, kw))
    decreases st, 1
  {
    var s1 := IfHeader(a.sink, st.cond);
    var a1 := WithSink(a, s1);
    var b1 := WithSink(b, s1);
    if st.elseBody.NoBlock? {
      if st.body.Block? {
        CompoundAgree(st.body.stmts, None,
          a1.(compoundFlags := Push(a1.compoundFlags, false), ifFlags := Push(a1.ifFlags, false)),
          b1.(compoundFlags := Push(b1.compoundFlags, false), ifFlags := Push(b1.ifFlags, false)), kw);
      }
    } else {
      var a2 := a1.(compoundFlags := Push(a1.compoundFlags, true));
      var b2 := b1.(compoundFlags := Push(b1.compoundFlags, true));
      if st.body.Block? {
        CompoundAgree(st.body.stmts, None, a2, b2, kw);
      }
      var ra := if st.body.Block? then RenderCompound(st.body.stmts, None, a2, kw) else Ok(a2);
      var rb := if st.body.Block? then RenderCompound(st.body.stmts, None, b2, kw) else Ok(b2);
      if ra.Ok? {
        ElseAgree(st, ra.value, rb.value, kw);
      }
    }
  }

  lemma {:induction false} ElseAgree(st: Stmt, a: Writer, b: Writer, kw: ModifierKind -> string)
    requires st.If? && st.elseBody.Block?
    requires Interchangeable(a, b)
    ensures Agree(RenderElse(st, a, kw), RenderElse(st, b, kw))
    decreases st, 0
  {
    var s1 := WriteWithSeparator(WriteIndentation(a.sink), "else");
    var a1 := WithSink(a, s1);
    var b1 := WithSink(b, s1);
    var es := st.elseBody.stmts;
    if |es| == 1 && es[0].If? {
      IfAgree(es[0], a1.(ifFlags := Push(a1.ifFlags, true)), b1.(ifFlags := Push(b1.ifFlags, true)), kw);
    } else {
      CompoundAgree(es, None, a1.(ifFlags := Push(a1.ifFlags, false)), b1.(ifFlags := Push(b1.ifFlags, false)), kw);
    }
  }

  lemma {:induction false} LabelsAgree(labels: seq<SwitchLabel>, i: nat, a: Writer, b: Writer, kw: ModifierKind -> string)
    requires i <= |labels|
    requires Interchangeable(a, b)
    ensures Agree(RenderLabels(labels, i, a, kw), RenderLabels(labels, i, b, kw))
    decreases labels, 1, |labels| - i
  {
    if i < |labels| {
      var a1 := if labels[i].CaseLabel? then WithSink(a, Write(a.sink, ExprText(labels[i].condition))) else a;
      var b1 := if labels[i].CaseLabel? then WithSink(b, Write(b.sink, ExprText(labels[i].condition))) else b;
      StatementsAgree(labels[i].labelBody, 0, None, a1, b1, kw);
      var ra := RenderStatementsFrom(labels[i].labelBody, 0, None, a1, kw);
      var rb := RenderStatementsFrom(labels[i].labelBody, 0, None, b1, kw);
      if ra.Ok? {
        LabelsAgree(labels, i + 1, ra.value, rb.value, kw);
      }
    }
  }

  lemma {:induction false} DeclarationAgree(d: Decl, a: Writer, b: Writer, kw: ModifierKind -> string)
    requires Interchangeable(a, b)
    ensures Agree(RenderDeclaration(d, a, kw), RenderDeclaration(d, b, kw))
    decreases d, 1
  {
    if d.Procedure? {
      ProcedureAgree(d, a, b, kw);
    }
  }

  lemma {:induction false} ProcedureAgree(d: Decl, a: Writer, b: Writer, kw: ModifierKind -> string)
    requires d.Procedure?
    requires Interchangeable(a, b)
    ensures Agree(RenderDeclaration(d, a, kw), RenderDeclaration(d, b, kw))
    decreases d, 0
  {
    var s := ProcedureHeader(a.sink, d.returnType, d.name, d.params);
    if d.procBody.Block? {
      ProcedureWithBody(d, a, kw);
      ProcedureWithBody(d, b, kw);
      CompoundAgree(d.procBody.stmts, Some(a.visited),
        WithSink(EnterProcedure(a, d.procBody), s), WithSink(EnterProcedure(b, d.procBody), s), kw);
    } else {
      ProcedureWithoutBody(d, a, kw);
      ProcedureWithoutBody(d, b, kw);
    }
  }

  /** The suppression stacks never change what is written: a statement
      rendered with any two pairs of stacks writes the same text and ends
      in the same state apart from the stacks. */
  lemma SuppressionStacksUnread(st: Stmt, pos: Position, w: Writer, c: seq<bool>, i: seq<bool>, kw: ModifierKind -> string)
    ensures Agree(RenderStatement(st, pos, w, kw),
                  RenderStatement(st, pos, w.(compoundFlags := c, ifFlags := i), kw))
  {
    StatementAgree(st, pos, w, w.(compoundFlags := c, ifFlags := i), kw);
  }
}

=== FILE: examples.dfy ===
/** Small worked outputs that pin down the writer's quirks. */
module RenderExamples {
  import opened Wrappers
  import opened Syntax
  import opened Identifiers
  import opened OutputSink
  import opened Expressions
  import opened Renderer

  /** The sink operations behind `return x;` at level 0. */
  lemma ReturnSinkText()
    ensures WriteStatementEnd(Write(WriteIndented(Initial, "return"), "x")) == Sink("returnx;\n", 0, false)
  {
    assert WriteIndented(Initial, "return").text == "return";
  }

  /** A valued return is written with no space between `return` and the
      value. */
  lemma ReturnHasNoSpace(kw: ModifierKind -> string)
    ensures
      var w := Start.(procedure := Some(ProcedureInfo(0, true, 1)));
      RenderStatement(Return(Some(Identifier("x"))), Elsewhere, w, kw)
        == Ok(WithSink(w, Sink("returnx;\n", 0, false)))
  {
    IdentifierExamples();
    assert ExprText(Identifier("x")) == "x";
    ReturnSinkText();
    var w := Start.(procedure := Some(ProcedureInfo(0, true, 1)));
    assert RenderKind(Return(Some(Identifier("x"))), Elsewhere, w, kw) == Ok(WithSink(w, Sink("returnx;\n", 0, false)));
  }

  /** A bare return with no procedure being written is an error. */
  lemma BareReturnOutsideProcedure(kw: ModifierKind -> string)
    ensures RenderStatement(Return(None), Elsewhere, Start, kw) == Err(NoCurrentProcedure)
  {
  }

  /** A body holding only an inline comment writes just that comment. */
  lemma OneCommentBody(content: string, owner: Option<nat>, w: Writer, kw: ModifierKind -> string)
    ensures RenderStatementsFrom([Comment(content, true)], 0, owner, w, kw)
      == Ok(WithSink(w, RenderComment(content, true, w.sink)))
  {
    var st := Comment(content, true);
    var pos := if owner.Some? then LastOfBody(owner.value) else Elsewhere;
    var c := WithSink(w, RenderComment(content, true, w.sink));
    assert RenderStatement(st, pos, w, kw) == Ok(c);
    assert RenderStatementsFrom([st], 1, owner, c, kw) == Ok(c);
  }

  /** The sink operations behind `void f() { /* note */ }` at level 0. */
  lemma GluedBraceText()
    ensures
      var s := WriteParameters(Write(Write(Write(Initial, "void"), " "), "f"), []);
      CloseBlock(DecreaseIndentation(RenderComment("note", true, OpenBlock(s)))).text
        == "void f()\n{\n  /* note */}\n"
  {
    var s := WriteParameters(Write(Write(Write(Initial, "void"), " "), "f"), []);
    assert s.text == "void f()";
    var o := OpenBlock(s);
    assert o.text == "void f()\n{\n" && o.tabLevel == 1;
    var c := RenderComment("note", true, o);
    assert c.text == "void f()\n{\n  /* note */";
  }

  /** At level 0 the closing brace is not preceded by a line terminator:
      after an inline comment it lands on the comment's line. */
  lemma TopLevelBraceIsGlued(kw: ModifierKind -> string)
    ensures
      var r := RenderDeclaration(Procedure("void", "f", [], Block([Comment("note", true)])), Start, kw);
      r.Ok? && r.value.sink.text == "void f()\n{\n  /* note */}\n"
  {
    assert IsPlainIdentifier("f");
    assert IdentifierText("f") == "f";
    var s := WriteParameters(Write(Write(Write(Initial, "void"), " "), "f"), []);
    var w := Start.(procedure := Some(ProcedureInfo(0, true, 1)), visited := 1);
    var w0 := w.(sink := OpenBlock(s), compoundFlags := PopIfAny(w.compoundFlags));
    OneCommentBody("note", Some(0), w0, kw);
    GluedBraceText();
  }
}

=== FILE: expressions.dfy ===
/** How expressions, parameter lists and string and bool literals are
    written. `ExprText` says what text an expression becomes; `RenderExpr`
    follows the writer's visit order, one sink write at a time. */
module Expressions {
  import opened Wrappers
  import opened Syntax
  import opened Literals
  import opened Identifiers
  import opened OutputSink

  /** Two writes in a row write the concatenation. */
  lemma WriteTwice(s: Sink, a: string, b: string)
    ensures Write(Write(s, a), b) == Write(s, a + b)
  {
    assert s.text + a + b == s.text + (a + b);
  }

  // ---- Operator symbols ----

  function BinarySymbol(op: BinaryOp): string {
    match op
    case Addition => "+"
    case Subtraction => "-"
    case Multiplication => "*"
    case Division => "/"
    case Equality => "=="
    case NonEquality => "!="
    case LessThan => "<"
    case LessThanOrEqual => "<="
    case GreaterThan => ">"
    case GreaterThanOrEqual => ">="
    case LogicalAnd => "&&"
    case LogicalOr => "||"
    case Assignment => "="
    case AdditionAssignment => "+="
    case SubtractionAssignment => "-="
    case MultiplicationAssignment => "*="
    case DivisionAssignment => "/="
  }

  /** The operator as written between its operands: one space each side. */
  function Infix(op: BinaryOp): string {
    " " + BinarySymbol(op) + " "
  }

  /** Reading an operator token back. */
  function BinaryFromSymbol(t: string): Option<BinaryOp> {
    if t == "+" then Some(Addition)
    else if t == "-" then Some(Subtraction)
    else if t == "*" then Some(Multiplication)
    else if t == "/" then Some(Division)
    else if t == "==" then Some(Equality)
    else if t == "!=" then Some(NonEquality)
    else if t == "<" then Some(LessThan)
    else if t == "<=" then Some(LessThanOrEqual)
    else if t == ">" then Some(GreaterThan)
    else if t == ">=" then Some(GreaterThanOrEqual)
    else if t == "&&" then Some(LogicalAnd)
    else if t == "||" then Some(LogicalOr)
    else if t == "=" then Some(Assignment)
    else if t == "+=" then Some(AdditionAssignment)
    else if t == "-=" then Some(SubtractionAssignment)
    else if t == "*=" then Some(MultiplicationAssignment)
    else if t == "/=" then Some(DivisionAssignment)
    else None
  }

  /** Every operator symbol reads back as its operator. */
  lemma BinarySymbolRoundTrip(a: BinaryOp)
    ensures BinaryFromSymbol(BinarySymbol(a)) == Some(a)
  {
    match a
    case Addition =>
    case Subtraction =>
    case Multiplication =>
    case Division =>
    case Equality =>
    case NonEquality =>
    case LessThan =>
    case LessThanOrEqual =>
    case GreaterThan =>
    case GreaterThanOrEqual =>
    case LogicalAnd =>
    case LogicalOr =>
    case Assignment =>
    case AdditionAssignment =>
    case SubtractionAssignment =>
    case MultiplicationAssignment =>
    case DivisionAssignment =>
  }

  /** Hence no two binary operators share a symbol. */
  lemma BinarySymbolInjective(a: BinaryOp, b: BinaryOp)
    ensures BinarySymbol(a) == BinarySymbol(b) <==> a == b
  {
    BinarySymbolRoundTrip(a);
    BinarySymbolRoundTrip(b);
  }

  function UnarySymbol(op: UnaryOp): string {
    match op
    case LogicalNot => "!"
    case Negation => "-"
    case PrefixIncrement => "++"
    case PrefixDecrement => "--"
    case PostfixIncrement => "++"
    case PostfixDecrement => "--"
  }

  /** Reading a unary operator token back, given the side of the operand
      it was found on. */
  function UnaryFromSymbol(t: string, after: bool): Option<UnaryOp> {
    if t == "!" && !after then Some(LogicalNot)
    else if t == "-" && !after then Some(Negation)
    else if t == "++" then Some(if after then PostfixIncrement else PrefixIncrement)
    else if t == "--" then Some(if after then PostfixDecrement else PrefixDecrement)
    else None
  }

  /** A unary operator symbol, read on the side where it was written,
      gives the operator back. */
  lemma UnarySymbolRoundTrip(op: UnaryOp)
    ensures UnaryFromSymbol(UnarySymbol(op), op.IsPostfix()) == Some(op)
  {
  }

  // ---- Literals ----

  /** `bool.ToString()`. */
  function BoolText(b: bool): (r: string)
    ensures r == "True" <==> b
    ensures r == "False" <==> !b
  {
    if b then "True" else "False"
  }

  /** A string between double quotes, with nothing escaped. */
  function QuotedText(v: string): (r: string)
    ensures |r| == |v| + 2 && r[0] == '"' && r[|r| - 1] == '"'
    ensures Unquote(r) == Some(v)
  {
    "\"" + v + "\""
  }

  /** Reading a quoted string back. */
  function Unquote(t: string): Option<string> {
    if |t| >= 2 && t[0] == '"' && t[|t| - 1] == '"' then Some(t[1..|t| - 1]) else None
  }

  /** Since nothing is escaped, a string containing a quote comes out as a
      token that closes early. */
  lemma QuoteNotEscaped()
    ensures QuotedText("a\"b") == "\"a\"b\""
  {
  }

  // ---- Expressions ----

  /** Binary operators other than the assignment family wrap themselves in
      parentheses. */
  predicate SelfParenthesised(e: Expr) {
    e.Binary? && !e.bop.IsAssignment()
  }

  /** The text an expression becomes. */
  function ExprText(e: Expr): (r: string)
    ensures SelfParenthesised(e) ==> |r| >= 2 && r[0] == '(' && r[|r| - 1] == ')'
    decreases e, 1
  {
    match e
    case BoolLiteral(b) => BoolText(b)
    case IntLiteral(i) => IntLiteralText(i)
    case UIntLiteral(u) => UIntLiteralText(u)
    case StringLiteral(v) => QuotedText(v)
    case Identifier(t) => IdentifierText(t)
    case TypeIdentifier(t) => t
    case MemberAccess(operand, member) => ExprText(operand) + "." + IdentifierText(member)
    case Call(callee, args) => callee + "(" + ArgumentsText(args) + ")"
    case Unary(op, operand) =>
      if op.IsPostfix() then ExprText(operand) + UnarySymbol(op) else UnarySymbol(op) + ExprText(operand)
    case Binary(op, left, right) =>
      var core := ExprText(left) + Infix(op) + ExprText(right);
      if op.IsAssignment() then core else "(" + core + ")"
  }

  /** Argument texts separated by `", "`. */
  function ArgumentsText(args: seq<Expr>): string
    decreases args, 0
  {
    if |args| == 0 then ""
    else if |args| == 1 then ExprText(args[0])
    else ExprText(args[0]) + ", " + ArgumentsText(args[1..])
  }

  /** The visit of an Identifier: escaped unless it matches the pattern. */
  function RenderIdentifier(t: string, s: Sink): Sink {
    if MatchesIdentifierPattern(t) then Write(s, t) else Write(s, "``" + t + "``")
  }

  /** The writer's visit of an expression, write by write. */
  function RenderExpr(e: Expr, s: Sink): Sink
    decreases e, 1
  {
    match e
    case BoolLiteral(b) => Write(s, BoolText(b))
    case IntLiteral(i) => Write(s, IntLiteralText(i))
    case UIntLiteral(u) => Write(s, UIntLiteralText(u))
    case StringLiteral(v) => Write(s, QuotedText(v))
    case Identifier(t) => RenderIdentifier(t, s)
    case TypeIdentifier(t) => Write(s, t)
    case MemberAccess(operand, member) =>
      RenderIdentifier(member, Write(RenderExpr(operand, s), "."))
    case Call(callee, args) =>
      var s1 := Write(s, callee);
      if |args| == 0 then Write(s1, "()")
      else Write(RenderArguments(args, 0, Write(s1, "(")), ")")
    case Unary(op, operand) =>
      if op.IsPostfix() then Write(RenderExpr(operand, s), UnarySymbol(op))
      else RenderExpr(operand, Write(s, UnarySymbol(op)))
    case Binary(op, left, right) =>
      var parens := !op.IsAssignment();
      var s1 := if parens then Write(s, "(") else s;
      var s2 := RenderExpr(right, Write(RenderExpr(left, s1), Infix(op)));
      if parens then Write(s2, ")") else s2
  }

  /** The argument loop from index `i` on: each argument, then `", "`
      after every one but the last. */
  function RenderArguments(args: seq<Expr>, i: nat, s: Sink): Sink
    requires i < |args|
    decreases args, 0, |args| - i
  {
    var s1 := RenderExpr(args[i], s);
    if i == |args| - 1 then s1
    else RenderArguments(args, i + 1, Write(s1, ", "))
  }

  /** Writing an expression piece by piece writes exactly its text. */
  lemma {:induction false} RenderExprWritesText(e: Expr, s: Sink)
    ensures RenderExpr(e, s) == Write(s, ExprText(e))
    decreases e, 1
  {
    match e
    case MemberAccess(operand, member) =>
      RenderExprWritesText(operand, s);
      WriteTwice(s, ExprText(operand), ".");
      WriteTwice(s, ExprText(operand) + ".", IdentifierText(member));
    case Call(callee, args) =>
      RenderCallWritesText(callee, args, s);
    case Unary(op, operand) =>
      if op.IsPostfix() {
        RenderExprWritesText(operand, s);
        WriteTwice(s, ExprText(operand), UnarySymbol(op));
      } else {
        RenderExprWritesText(operand, Write(s, UnarySymbol(op)));
        WriteTwice(s, UnarySymbol(op), ExprText(operand));
      }
    case Binary(op, left, right) =>
      RenderBinaryWritesText(op, left, right, s);
    case _ =>
  }

  lemma {:induction false} RenderCallWritesText(callee: string, args: seq<Expr>, s: Sink)
    ensures RenderExpr(Call(callee, args), s) == Write(s, ExprText(Call(callee, args)))
    decreases Call(callee, args), 0
  {
    WriteTwice(s, callee, "(");
    if |args| == 0 {
      WriteTwice(s, callee, "()");
      assert callee + "(" + ArgumentsText(args) + ")" == callee + "()";
    } else {
      var a := ArgumentsText(args);
      RenderArgumentsWritesText(args, 0, Write(Write(s, callee), "("));
      assert args[0..] == args;
      WriteTwice(s, callee + "(", a);
      WriteTwice(s, callee + "(" + a, ")");
    }
  }

  lemma {:induction false} RenderBinaryWritesText(op: BinaryOp, left: Expr, right: Expr, s: Sink)
    ensures RenderExpr(Binary(op, left, right), s) == Write(s, ExprText(Binary(op, left, right)))
    decreases Binary(op, left, right), 0
  {
    var l, sym, rt := ExprText(left), Infix(op), ExprText(right);
    var s1 := if !op.IsAssignment() then Write(s, "(") else s;
    RenderExprWritesText(left, s1);
    var s2 := Write(RenderExpr(left, s1), sym);
    WriteTwice(s1, l, sym);
    RenderExprWritesText(right, s2);
    WriteTwice(s1, l + sym, rt);
    assert RenderExpr(right, s2) == Write(s1, l + sym + rt);
    if !op.IsAssignment() {
      WriteTwice(s, "(", l + sym + rt);
      WriteTwice(s, "(" + (l + sym + rt), ")");
      assert "(" + (l + sym + rt) + ")" == ExprText(Binary(op, left, right));
    } else {
      assert l + sym + rt == ExprText(Binary(op, left, right));
    }
  }

  lemma {:induction false} RenderArgumentsWritesText(args: seq<Expr>, i: nat, s: Sink)
    requires i < |args|
    ensures RenderArguments(args, i, s) == Write(s, ArgumentsText(args[i..]))
    decreases args, 0, |args| - i
  {
    RenderExprWritesText(args[i], s);
    if i < |args| - 1 {
      var s1 := RenderExpr(args[i], s);
      RenderArgumentsWritesText(args, i + 1, Write(s1, ", "));
      assert args[i..][1..] == args[i + 1..];
    }
  }

  // ---- Parameters ----

  /** `type name` pairs separated by `", "`, in parentheses. Neither part
      is escaped. */
  function ParametersText(ps: seq<Parameter>): string {
    "(" + ParameterListText(ps) + ")"
  }

  function ParameterListText(ps: seq<Parameter>): string {
    if |ps| == 0 then ""
    else if |ps| == 1 then ps[0].typeName + " " + ps[0].name
    else ps[0].typeName + " " + ps[0].name + ", " + ParameterListText(ps[1..])
  }

  /** The writer's parameter loop from index `i` on. */
  function RenderParameterList(ps: seq<Parameter>, i: nat, s: Sink): (r: Sink)
    requires i < |ps|
    ensures r == Write(s, ParameterListText(ps[i..]))
    decreases |ps| - i
  {
    var s1 := Write(Write(Write(s, ps[i].typeName), " "), ps[i].name);
    if i == |ps| - 1 then s1
    else RenderParameterList(ps, i + 1, Write(s1, ", "))
  }

  function WriteParameters(s: Sink, ps: seq<Parameter>): (r: Sink)
    ensures r == Write(s, ParametersText(ps))
  {
    if |ps| == 0 then Write(s, "()")
    else Write(RenderParameterList(ps, 0, Write(s, "(")), ")")
  }

  /** Type names, callee names and parameter names are written as they
      are: only Identifier nodes are escaped. */
  lemma NamesWrittenRaw(t: string, callee: string, args: seq<Expr>, p: Parameter)
    ensures ExprText(TypeIdentifier(t)) == t
    ensures callee + "(" <= ExprText(Call(callee, args))
    ensures ParametersText([p]) == "(" + p.typeName + " " + p.name + ")"
  {
    var a := ArgumentsText(args);
    assert ExprText(Call(callee, args)) == (callee + "(") + (a + ")");
  }

  // ---- If conditions ----

  /** The parenthesisation test of the if statement: parentheses are added
      unless the condition is a binary operator outside the assignment
      family. */
  predicate ConditionNeedsParentheses(c: Expr) {
    !c.Binary? || c.bop.IsAssignment()
  }

  /** The text between `if ` and the body. */
  function IfConditionText(c: Expr): string {
    if ConditionNeedsParentheses(c) then "(" + ExprText(c) + ")" else ExprText(c)
  }

  /** The condition without any parentheses of its own at the outside. */
  function ConditionCore(c: Expr): string {
    match c
    case Binary(op, left, right) => ExprText(left) + Infix(op) + ExprText(right)
    case _ => ExprText(c)
  }

  /** An if condition always sits in exactly one outer pair of parentheses:
      the one the if adds or the one the binary operator brings, never
      both. */
  lemma {:induction false} IfConditionParenthesisedOnce(c: Expr)
    ensures IfConditionText(c) == "(" + ConditionCore(c) + ")"
    ensures SelfParenthesised(c) <==> IfConditionText(c) == ExprText(c)
  {
    if !ConditionNeedsParentheses(c) {
      assert IfConditionText(c) == ExprText(c);
    } else {
      var t := ExprText(c);
      assert |"(" + t + ")"| == |t| + 2;
    }
  }
}

=== FILE: identifiers.dfy ===
/** Identifier escaping: names that are not plain identifiers are wrapped
    in double backticks. */
module Identifiers {

  predicate IsIdentifierStart(c: char) {
    ('a' <= c <= 'z') || ('A' <= c <= 'Z') || c == '_'
  }

  predicate IsIdentifierPart(c: char) {
    IsIdentifierStart(c) || ('0' <= c <= '9')
  }

  /** `[a-zA-Z_][a-zA-Z0-9_]*` matching the whole string. */
  predicate IsPlainIdentifier(t: string) {
    |t| >= 1 && IsIdentifierStart(t[0]) && forall i :: 1 <= i < |t| ==> IsIdentifierPart(t[i])
  }

  /** `^[a-zA-Z_][a-zA-Z0-9_]*$` as the .NET regex engine matches it: without
      the Multiline option `$` also matches just before a final '\n', so a
      plain identifier followed by one newline matches too. */
  predicate MatchesIdentifierPattern(t: string) {
    || IsPlainIdentifier(t)
    || (|t| >= 2 && t[|t| - 1] == '\n' && IsPlainIdentifier(t[..|t| - 1]))
  }

  /** Reading an identifier token back: strips one pair of ``` `` ```
      delimiters if present. */
  function UnescapeIdentifier(u: string): string {
    if |u| >= 4 && u[..2] == "``" && u[|u| - 2..] == "``" then u[2..|u| - 2] else u
  }

  /** How an Identifier node is written. */
  function IdentifierText(t: string): (r: string)
    ensures r == t <==> MatchesIdentifierPattern(t)
    ensures !MatchesIdentifierPattern(t) ==> |r| == |t| + 4 && r[..2] == "``" && r[|r| - 2..] == "``"
    ensures UnescapeIdentifier(r) == t
  {
    if MatchesIdentifierPattern(t) then t else "``" + t + "``"
  }

  lemma IdentifierExamples()
    ensures IdentifierText("foo_bar2") == "foo_bar2"
    ensures IdentifierText("1 bad") == "``1 bad``"
    ensures IdentifierText("") == "````"
    ensures IdentifierText("name\n") == "name\n"
  {
    assert IsPlainIdentifier("foo_bar2");
    assert !IsIdentifierStart("1 bad"[0]);
    assert IsPlainIdentifier("name\n"[..4]);
  }
}

=== FILE: invariants.dfy ===
/** What every successful visit preserves: the text written so far is only
    ever extended, and the line flag keeps telling the truth. And the shape
    a compound statement gives its braces. */
module RenderInvariants {
  import opened Wrappers
  import opened Syntax
  import opened Identifiers
  import opened OutputSink
  import opened Expressions
  import opened Renderer

  lemma FollowsTrans(a: Writer, b: Writer, c: Writer)
    requires Follows(a, b) && Follows(b, c)
    ensures Follows(a, c)
  {
  }

  lemma PrefixTrans(a: string, b: string, c: string)
    requires a <= b && b <= c
    ensures a <= c
  {
  }

  lemma {:induction false} StatementFollows(st: Stmt, pos: Position, w: Writer, kw: ModifierKind -> string)
    ensures RenderStatement(st, pos, w, kw).Ok? ==> Follows(w, RenderStatement(st, pos, w, kw).value)
    decreases st, 4
  {
    var w1 := if SelfIndenting(st) then w else WithSink(w, WriteIndentation(w.sink));
    KindFollows(st, pos, w1, kw);
    var r := RenderKind(st, pos, w1, kw);
    if r.Ok? {
      FollowsTrans(w, w1, r.value);
      if HasTerminator(st) {
        FollowsTrans(w, r.value, WithSink(r.value, WriteStatementEnd(r.value.sink)));
      }
    }
  }

  lemma {:induction false} KindFollows(st: Stmt, pos: Position, w: Writer, kw: ModifierKind -> string)
    ensures RenderKind(st, pos, w, kw).Ok? ==> Follows(w, RenderKind(st, pos, w, kw).value)
    decreases st, 3
  {
    if st.Compound? {
      CompoundFollows(st.stmts, None, w, kw);
    } else if st.If? {
      IfFollows(st, w, kw);
    } else if st.While? || st.For? {
      LoopFollows(st, pos, w, kw);
    } else if st.Switch? {
      SwitchFollows(st, pos, w, kw);
    } else if st.Declaration? {
      DeclarationFollows(st.decl, w, kw);
    } else {
      LeafFollows(st, pos, w, kw);
    }
  }

  lemma LeafFollows(st: Stmt, pos: Position, w: Writer, kw: ModifierKind -> string)
    requires !(st.Compound? || st.If? || st.While? || st.For? || st.Switch? || st.Declaration?)
    ensures RenderKind(st, pos, w, kw).Ok? ==> Follows(w, RenderKind(st, pos, w, kw).value)
  {
  }

  lemma {:induction false} LoopFollows(st: Stmt, pos: Position, w: Writer, kw: ModifierKind -> string)
    requires st.While? || st.For?
    ensures RenderKind(st, pos, w, kw).Ok? ==> Follows(w, RenderKind(st, pos, w, kw).value)
    decreases st, 2
  {
    var w1 :=
      if st.While? then WithSink(w, WhileHeader(w.sink, st.cond))
      else WithSink(w, ForHeader(w.sink, st.init, st.cond, st.afterLoop));
    assert RenderKind(st, pos, w, kw) == RenderCompound(st.loopBody, None, w1, kw);
    CompoundFollows(st.loopBody, None, w1, kw);
    if RenderCompound(st.loopBody, None, w1, kw).Ok? {
      FollowsTrans(w, w1, RenderCompound(st.loopBody, None, w1, kw).value);
    }
  }

  lemma {:induction false} SwitchFollows(st: Stmt, pos: Position, w: Writer, kw: ModifierKind -> string)
    requires st.Switch?
    ensures RenderKind(st, pos, w, kw).Ok? ==> Follows(w, RenderKind(st, pos, w, kw).value)
    decreases st, 2
  {
    var w1 := WithSink(w, SwitchHeader(w.sink, st.switchOn));
    LabelsFollows(st.labels, 0, w1, kw);
    var r := RenderLabels(st.labels, 0, w1, kw);
    if r.Ok? {
      FollowsTrans(w, w1, r.value);
      FollowsTrans(w, r.value, WithSink(r.value, SwitchFooter(r.value.sink)));
    }
  }

  lemma {:induction false} CompoundFollows(ss: seq<Stmt>, owner: Option<nat>, w: Writer, kw: ModifierKind -> string)
    ensures RenderCompound(ss, owner, w, kw).Ok? ==> Follows(w, RenderCompound(ss, owner, w, kw).value)
    decreases ss, 2
  {
    var w0 := w.(sink := OpenBlock(w.sink), compoundFlags := PopIfAny(w.compoundFlags));
    StatementsFollow(ss, 0, owner, w0, kw);
    var r := RenderStatementsFrom(ss, 0, owner, w0, kw);
    if r.Ok? {
      PrefixTrans(w.sink.text, w0.sink.text, r.value.sink.text);
      var fin := CloseBlock(DecreaseIndentation(r.value.sink));
      PrefixTrans(w.sink.text, r.value.sink.text, fin.text);
    }
  }

  lemma {:induction false} StatementsFollow(ss: seq<Stmt>, i: nat, owner: Option<nat>, w: Writer, kw: ModifierKind -> string)
    requires i <= |ss|
    ensures RenderStatementsFrom(ss, i, owner, w, kw).Ok? ==> Follows(w, RenderStatementsFrom(ss, i, owner, w, kw).value)
    decreases ss, 1, |ss| - i
  {
    if i < |ss| {
      var pos := if owner.Some? && i == |ss| - 1 then LastOfBody(owner.value) else Elsewhere;
      StatementFollows(ss[i], pos, w, kw);
      var r := RenderStatement(ss[i], pos, w, kw);
      if r.Ok? {
        StatementsFollow(ss, i + 1, owner, r.value, kw);
        var r2 := RenderStatementsFrom(ss, i + 1, owner, r.value, kw);
        if r2.Ok? {
          FollowsTrans(w, r.value, r2.value);
        }
      }
    }
  }

  lemma {:induction false} IfFollows(st: Stmt, w: Writer, kw: ModifierKind -> string)
    requires st.If?
    ensures RenderIf(st, w, kw).Ok? ==> Follows(w, RenderIf(st, w, kw).value)
    decreases st, 1
  {
    var w1 := WithSink(w, IfHeader(w.sink, st.cond));
    if st.elseBody.NoBlock? {
      var w2 := w1.(compoundFlags := Push(w1.compoundFlags, false), ifFlags := Push(w1.ifFlags, false));
      if st.body.Block? {
        CompoundFollows(st.body.stmts, None, w2, kw);
        var r := RenderCompound(st.body.stmts, None, w2, kw);
        if r.Ok? {
          FollowsTrans(w, w2, r.value);
        }
      }
    } else {
      var w2 := w1.(compoundFlags := Push(w1.compoundFlags, true));
      if st.body.Block? {
        CompoundFollows(st.body.stmts, None, w2, kw);
      }
      var r3 := if st.body.Block? then RenderCompound(st.body.stmts, None, w2, kw) else Ok(w2);
      if r3.Ok? {
        FollowsTrans(w, w2, r3.value);
        ElseFollows(st, r3.value, kw);
        var r := RenderElse(st, r3.value, kw);
        assert RenderIf(st, w, kw) == r;
        if r.Ok? {
          FollowsTrans(w, r3.value, r.value);
        }
      }
    }
  }

  lemma {:induction false} ElseFollows(st: Stmt, w: Writer, kw: ModifierKind -> string)
    requires st.If? && st.elseBody.Block?
    ensures RenderElse(st, w, kw).Ok? ==> Follows(w, RenderElse(st, w, kw).value)
    decreases st, 0
  {
    var w1 := WithSink(w, WriteWithSeparator(WriteIndentation(w.sink), "else"));
    var es := st.elseBody.stmts;
    if |es| == 1 && es[0].If? {
      var w2 := w1.(ifFlags := Push(w1.ifFlags, true));
      IfFollows(es[0], w2, kw);
      var r := RenderIf(es[0], w2, kw);
      if r.Ok? {
        FollowsTrans(w, w2, r.value);
      }
    } else {
      var w2 := w1.(ifFlags := Push(w1.ifFlags, false));
      CompoundFollows(es, None, w2, kw);
      var r := RenderCompound(es, None, w2, kw);
      if r.Ok? {
        FollowsTrans(w, w2, r.value);
      }
    }
  }

  lemma {:induction false} LabelsFollows(labels: seq<SwitchLabel>, i: nat, w: Writer, kw: ModifierKind -> string)
    requires i <= |labels|
    ensures RenderLabels(labels, i, w, kw).Ok? ==> Follows(w, RenderLabels(labels, i, w, kw).value)
    decreases labels, 1, |labels| - i
  {
    if i < |labels| {
      var w1 := if labels[i].CaseLabel? then WithSink(w, Write(w.sink, ExprText(labels[i].condition))) else w;
      StatementsFollow(labels[i].labelBody, 0, None, w1, kw);
      var r := RenderStatementsFrom(labels[i].labelBody, 0, None, w1, kw);
      if r.Ok? {
        FollowsTrans(w, w1, r.value);
        LabelsFollows(labels, i + 1, r.value, kw);
        var r2 := RenderLabels(labels, i + 1, r.value, kw);
        if r2.Ok? {
          FollowsTrans(w, r.value, r2.value);
        }
      }
    }
  }

  lemma {:induction false} DeclarationFollows(d: Decl, w: Writer, kw: ModifierKind -> string)
    ensures RenderDeclaration(d, w, kw).Ok? ==> Follows(w, RenderDeclaration(d, w, kw).value)
    decreases d, 1
  {
    if d.Procedure? {
      ProcedureFollows(d, w, kw);
    }
  }

  lemma {:induction false} ProcedureFollows(d: Decl, w: Writer, kw: ModifierKind -> string)
    requires d.Procedure?
    ensures RenderDeclaration(d, w, kw).Ok? ==> Follows(w, RenderDeclaration(d, w, kw).value)
    decreases d, 0
  {
    var w1 := EnterProcedure(w, d.procBody);
    var s := ProcedureHeader(w.sink, d.returnType, d.name, d.params);
    PrefixTrans(w.sink.text, Write(Write(w.sink, d.returnType), " ").text, s.text);
    if d.procBody.Block? {
      ProcedureWithBody(d, w, kw);
      CompoundFollows(d.procBody.stmts, Some(w.visited), WithSink(w1, s), kw);
      var r := RenderCompound(d.procBody.stmts, Some(w.visited), WithSink(w1, s), kw);
      if r.Ok? {
        FollowsTrans(w, WithSink(w1, s), r.value);
      }
    } else {
      ProcedureWithoutBody(d, w, kw);
    }
  }

  /** A compound statement opens with a fresh line (if the current one was
      open) and a `{` line at the current level, and closes with a `}` line
      at the current level, leaving the cursor at the start of a line.
      Inside another block, the `}` always starts its own line. */
  lemma {:induction false} CompoundShape(ss: seq<Stmt>, owner: Option<nat>, w: Writer, kw: ModifierKind -> string)
    ensures var r := RenderCompound(ss, owner, w, kw);
      r.Ok? ==>
        var t := w.sink.tabLevel;
        && OpenBlock(w.sink).text <= r.value.sink.text
        && EndsWith(r.value.sink.text, Indentation(t) + "}" + NewLine)
        && (t > 0 ==> EndsWith(r.value.sink.text, NewLine + Indentation(t) + "}" + NewLine))
        && !r.value.sink.insideLine
  {
    var w0 := w.(sink := OpenBlock(w.sink), compoundFlags := PopIfAny(w.compoundFlags));
    StatementsFollow(ss, 0, owner, w0, kw);
    var r := RenderStatementsFrom(ss, 0, owner, w0, kw);
    if r.Ok? {
      assert RenderCompound(ss, owner, w, kw) == Ok(WithSink(r.value, CloseBlock(DecreaseIndentation(r.value.sink))));
      BlockShape(w.sink, r.value.sink);
    }
  }

  /** The brace lines of a block whose statements, written one level
      deeper after the opening, left the sink at `inner`. */
  lemma BlockShape(s: Sink, inner: Sink)
    requires Appends(OpenBlock(s), inner) && LineFlagHonest(inner)
    ensures var fin := CloseBlock(DecreaseIndentation(inner));
      var t := s.tabLevel;
      && OpenBlock(s).text <= fin.text
      && EndsWith(fin.text, Indentation(t) + "}" + NewLine)
      && (t > 0 ==> EndsWith(fin.text, NewLine + Indentation(t) + "}" + NewLine))
      && !fin.insideLine
  {
    var d := DecreaseIndentation(inner);
    assert d.tabLevel == s.tabLevel && d.text == inner.text && LineFlagHonest(d);
    var fin := CloseBlock(d);
    PrefixTrans(OpenBlock(s).text, d.text, fin.text);
    assert |d.text| >= |OpenBlock(s).text| > 0;
  }
}

=== FILE: literals.dfy ===
/** Literal formatting: the decimal-versus-hex heuristic for integer
    literals, the hex width selection, and the digit strings behind them. */
module Literals {
  import opened Wrappers
  import opened Syntax
  import BitBounds

  /** The value of a digit character, '0'-'9' then upper-case 'A'-'F';
      16 for any other character. */
  function CharValue(c: char): nat {
    if '0' <= c <= '9' then c as int - '0' as int
    else if 'A' <= c <= 'F' then c as int - 'A' as int + 10
    else 16
  }

  /** The upper-case digit character for a digit value below 16. */
  function DigitChar(d: nat): (c: char)
    requires d < 16
    ensures CharValue(c) == d
  {
    if d < 10 then ('0' as int + d) as char else ('A' as int + d - 10) as char
  }

  /** A non-empty string of digits of the given base. */
  predicate IsDigitString(s: string, base: nat) {
    |s| >= 1 && forall i :: 0 <= i < |s| ==> CharValue(s[i]) < base
  }

  /** The number a digit string denotes, most significant digit first. */
  function DigitsValue(s: string, base: nat): nat {
    if |s| == 0 then 0 else DigitsValue(s[..|s| - 1], base) * base + CharValue(s[|s| - 1])
  }

  /** The shortest digit string of `n` ("0" for zero), upper-case, as
      `ToString()` and the `X` format specifier print it. */
  function Digits(n: nat, base: nat): (r: string)
    requires 2 <= base <= 16
    ensures IsDigitString(r, base)
    ensures |r| > 1 ==> CharValue(r[0]) != 0
    decreases n
  {
    if n < base then [DigitChar(n)]
    else
      EuclideanDivision(n, base);
      Digits(n / base, base) + [DigitChar(n % base)]
  }

  lemma EuclideanDivision(n: nat, base: nat)
    requires 2 <= base <= n
    ensures n == (n / base) * base + n % base && 0 <= n % base < base
    ensures 1 <= n / base < n
  {
  }

  lemma {:induction false} DigitsRoundTrip(n: nat, base: nat)
    requires 2 <= base <= 16
    ensures DigitsValue(Digits(n, base), base) == n
    decreases n
  {
    if n >= base {
      EuclideanDivision(n, base);
      DigitsRoundTrip(n / base, base);
      var d := Digits(n / base, base);
      assert (d + [DigitChar(n % base)])[..|d|] == d;
    }
  }

  function Pow16(k: nat): nat {
    if k == 0 then 1 else 16 * Pow16(k - 1)
  }

  /** `n` has at most `k` hex digits exactly when it is below 16^k. */
  lemma {:induction false} HexDigitCount(n: nat, k: nat)
    requires k >= 1
    ensures |Digits(n, 16)| <= k <==> n < Pow16(k)
    decreases n
  {
    if n >= 16 {
      if k > 1 {
        HexDigitCount(n / 16, k - 1);
      } else {
        assert Pow16(1) == 16;
      }
    } else {
      PowAtLeastSixteen(k);
    }
  }

  lemma {:induction false} PowAtLeastSixteen(k: nat)
    requires k >= 1
    ensures Pow16(k) >= 16
  {
    if k > 1 {
      PowAtLeastSixteen(k - 1);
    }
  }

  function Zeros(k: nat): (r: string)
    ensures |r| == k && forall i :: 0 <= i < k ==> r[i] == '0'
  {
    seq(k, _ => '0')
  }

  /** Left padding with '0' up to `width` characters, as the `X2`, `X4` and
      `X8` format specifiers pad. */
  function PadLeft(s: string, width: nat): (r: string)
    ensures |r| == if |s| >= width then |s| else width
    ensures r[|r| - |s|..] == s
    ensures forall i :: 0 <= i < |r| - |s| ==> r[i] == '0'
  {
    if |s| >= width then s else Zeros(width - |s|) + s
  }

  lemma {:induction false} ZerosValue(k: nat, base: nat)
    ensures DigitsValue(Zeros(k), base) == 0
  {
    if k > 0 {
      assert Zeros(k)[..k - 1] == Zeros(k - 1);
      ZerosValue(k - 1, base);
    }
  }

  /** Leading zeros do not change the value of a digit string. */
  lemma {:induction false} LeadingZerosValue(k: nat, s: string, base: nat)
    ensures DigitsValue(Zeros(k) + s, base) == DigitsValue(s, base)
    decreases |s|
  {
    if |s| == 0 {
      assert Zeros(k) + s == Zeros(k);
      ZerosValue(k, base);
    } else {
      var t := s[..|s| - 1];
      assert (Zeros(k) + s)[..|Zeros(k) + s| - 1] == Zeros(k) + t;
      LeadingZerosValue(k, t, base);
    }
  }

  // ---- The source's bit tests, on 32-bit unsigned values ----

  predicate IsPowerOfTwo(x: UInt32) {
    x != 0 && (x & (x - 1)) == 0
  }

  /** `(value & ~0xFF) == 0`. */
  predicate FitsInByte(v: UInt32) {
    (v & !0xFF) == 0
  }

  /** `(((value & 0xffff8000) + 0x8000) & 0xffff7fff) == 0`, with the
      addition wrapping around at 2^32. */
  predicate FitsInShort(v: UInt32) {
    (((v & 0xffff8000) + 0x8000) & 0xffff7fff) == 0
  }

  /** The value with only bit `k` set. */
  function Bit(k: bv32): UInt32
    requires k < 32
  {
    1 << k
  }

  // ---- Hex literals ----

  /** Minimum number of hex digits: `X2`, `X4` or `X8`. */
  function HexWidth(v: UInt32): nat {
    if FitsInByte(v) then 2 else if FitsInShort(v) then 4 else 8
  }

  /** `0x` followed by the upper-case hex digits of `v`, zero-padded to the
      width the value range selects. */
  function HexText(v: UInt32): string {
    "0x" + PadLeft(Digits(v as int, 16), HexWidth(v))
  }

  /** Because of the wrap-around, FitsInShort also accepts the top 0x8000
      values of the range, not only the values below 0x8000. */
  lemma FitsInShortRange(v: UInt32)
    ensures FitsInShort(v) <==> v < 0x8000 || v >= 0xFFFF_8000
  {
  }

  lemma HexWidthByBits(v: UInt32)
    ensures HexWidth(v) == if v <= 0xFF then 2 else if v < 0x8000 || !(v < 0xFFFF_8000) then 4 else 8
  {
  }

  /** The width rule, stated on the number `v` denotes. */
  lemma HexWidthRule(v: UInt32)
    ensures HexWidth(v) == if v as int <= 0xFF then 2
                           else if v as int < 0x8000 || v as int >= 0xFFFF_8000 then 4
                           else 8
  {
    HexWidthByBits(v);
    BitBounds.AtMostByte(v);
    BitBounds.BelowShort(v);
    BitBounds.BelowTop(v);
  }

  /** Zero-padded hex digits of `n` are hex digits denoting `n`. */
  lemma PaddedHexValue(n: nat, width: nat)
    ensures IsDigitString(PadLeft(Digits(n, 16), width), 16)
    ensures DigitsValue(PadLeft(Digits(n, 16), width), 16) == n
  {
    var d := Digits(n, 16);
    DigitsRoundTrip(n, 16);
    if |d| < width {
      LeadingZerosValue(width - |d|, d, 16);
    }
  }

  /** How many digits the padded hex text has, for each width the rule picks. */
  lemma PaddedHexLength(n: nat, width: nat)
    requires n < 0x1_0000_0000
    requires width == if n <= 0xFF then 2 else if n < 0x8000 || n >= 0xFFFF_8000 then 4 else 8
    ensures |PadLeft(Digits(n, 16), width)| == if n <= 0xFF then 2 else if n < 0x8000 then 4 else 8
  {
    assert Pow16(2) == 0x100 && Pow16(4) == 0x1_0000;
    assert Pow16(7) == 0x1000_0000 && Pow16(8) == 0x1_0000_0000;
    HexDigitCount(n, 8);
    if n <= 0xFF {
      HexDigitCount(n, 2);
    } else if n < 0x8000 {
      HexDigitCount(n, 4);
    } else if n >= 0xFFFF_8000 {
      HexDigitCount(n, 7);
    }
  }

  /** A hex literal is `0x` and upper-case hex digits denoting `v`. */
  lemma HexTextShape(v: UInt32)
    ensures HexText(v)[..2] == "0x"
    ensures IsDigitString(HexText(v)[2..], 16)
    ensures DigitsValue(HexText(v)[2..], 16) == v as int
  {
    var p := PadLeft(Digits(v as int, 16), HexWidth(v));
    assert HexText(v)[2..] == p;
    PaddedHexValue(v as int, HexWidth(v));
  }

  /** It has 2 digits up to 0xFF, 4 below 0x8000 and 8 from there on. */
  lemma HexTextLength(v: UInt32)
    ensures |HexText(v)| == 2 + if v as int <= 0xFF then 2 else if v as int < 0x8000 then 4 else 8
  {
    BitBounds.Below2To32(v);
    HexWidthRule(v);
    PaddedHexLength(v as int, HexWidth(v));
  }

  // ---- Decimal literals ----

  /** `int.ToString()`: a leading '-' for negative values, then the
      decimal digits of the magnitude. */
  function DecimalText(n: int): string {
    if n < 0 then "-" + Digits(-n, 10) else Digits(n, 10)
  }

  // ---- Integer literals ----

  /** `IsPowerOfTwo(value) && (value & 0xF) == 0`. */
  predicate UIntUsesHex(v: UInt32) {
    IsPowerOfTwo(v) && (v & 0xF) == 0
  }

  /** `value >= 0 && IsPowerOfTwo((uint)value) && (value & 0xF) == 0`. */
  predicate IntUsesHex(i: Int32) {
    SignedValue(i) >= 0 && IsPowerOfTwo(i) && (i & 0xF) == 0
  }

  function UIntLiteralText(v: UInt32): string {
    if UIntUsesHex(v) then HexText(v) else DecimalText(v as int)
  }

  function IntLiteralText(i: Int32): string {
    if IntUsesHex(i) then HexText(i) else DecimalText(SignedValue(i))
  }

  lemma FlagBit(v: UInt32) returns (k: bv32)
    requires UIntUsesHex(v)
    ensures 4 <= k < 32 && v == Bit(k)
  {
    k := 4;
    while v != Bit(k)
      invariant 4 <= k < 32
      invariant v & (Bit(k) - 1) == 0
      decreases 32 - k as int
    {
      k := k + 1;
    }
  }

  /** A uint literal is written in hex exactly when it is a single bit at
      position 4 or above (0x10, 0x20, ..., 0x80000000). */
  lemma UIntHexDecision(v: UInt32)
    ensures UIntUsesHex(v) <==> exists k: bv32 :: 4 <= k < 32 && v == Bit(k)
  {
    if UIntUsesHex(v) {
      var k := FlagBit(v);
    }
  }

  /** An int literal is written in hex exactly when it is a single bit at
      position 4 to 30; in particular a negative int is always decimal. */
  lemma IntHexDecision(i: Int32)
    ensures IntUsesHex(i) <==> exists k: bv32 :: 4 <= k < 31 && i == Bit(k)
    ensures SignedValue(i) < 0 ==> IntLiteralText(i)[0] == '-'
  {
    if IntUsesHex(i) {
      var k := FlagBit(i);
    }
  }

  // ---- Reading a literal back ----

  /** The number an integer literal token denotes: `0x` and hex digits, an
      optional '-' and decimal digits, or None for anything else. */
  function LiteralValue(t: string): Option<int> {
    if |t| >= 2 && t[..2] == "0x" then
      if IsDigitString(t[2..], 16) then Some(DigitsValue(t[2..], 16) as int) else None
    else if |t| >= 1 && t[0] == '-' then
      if IsDigitString(t[1..], 10) then Some(0 - DigitsValue(t[1..], 10)) else None
    else if IsDigitString(t, 10) then Some(DigitsValue(t, 10) as int)
    else None
  }

  lemma DecimalRoundTrip(n: int)
    ensures LiteralValue(DecimalText(n)) == Some(n)
  {
    var m := if n < 0 then -n else n;
    var d := Digits(m, 10);
    DigitsRoundTrip(m, 10);
    var t := DecimalText(n);
    if n < 0 {
      assert t == "-" + d;
      assert t[0] == '-' && t[1..] == d;
      assert !(|t| >= 2 && t[..2] == "0x");
      assert LiteralValue(t) == Some(0 - DigitsValue(d, 10));
    } else {
      assert t == d;
      assert CharValue(d[0]) < 10;
      assert t[0] != '-';
      assert |d| >= 2 ==> CharValue(d[1]) < 10;
      assert !(|t| >= 2 && t[..2] == "0x");
      assert LiteralValue(t) == Some(DigitsValue(d, 10) as int);
    }
  }

  /** Whichever form the heuristic picks, the literal denotes the value. */
  lemma UIntLiteralRoundTrip(v: UInt32)
    ensures LiteralValue(UIntLiteralText(v)) == Some(v as int)
  {
    if UIntUsesHex(v) {
      HexTextShape(v);
    } else {
      DecimalRoundTrip(v as int);
    }
  }

  lemma IntLiteralRoundTrip(i: Int32)
    ensures LiteralValue(IntLiteralText(i)) == Some(SignedValue(i))
  {
    if IntUsesHex(i) {
      HexTextShape(i);
    } else {
      DecimalRoundTrip(SignedValue(i));
    }
  }

  /** 0x100 keeps a 4-digit width and 0x8000 already takes 8 digits. */
  lemma HexWidthExamples()
    ensures UIntLiteralText(0x10) == "0x10"
    ensures UIntLiteralText(0x100) == "0x0100"
    ensures UIntLiteralText(0x8000) == "0x00008000"
  {
    var a: UInt32, b: UInt32, c: UInt32 := 0x10, 0x100, 0x8000;
    assert UIntUsesHex(a) && UIntUsesHex(b) && UIntUsesHex(c);
    assert HexWidth(a) == 2 && HexWidth(b) == 4 && HexWidth(c) == 8;
    assert a as int == 16 && b as int == 256 && c as int == 0x8000;
    assert Digits(16, 16) == "10";
    assert Digits(256, 16) == "100";
    assert Digits(0x8000, 16) == "8000";
  }

  /** 17 is not a power of two, and a negative int is never hex. */
  lemma DecimalExamples()
    ensures UIntLiteralText(17) == "17"
    ensures IntLiteralText(0xFFFF_FFF0) == "-16"
  {
    var a: UInt32, b: Int32 := 17, 0xFFFF_FFF0;
    assert !UIntUsesHex(a) && a as int == 17;
    assert Digits(17, 10) == "17";
    assert SignedValue(b) == -16 by {
      BitBounds.BelowSignBit(b);
    }
    assert !IntUsesHex(b);
    assert Digits(16, 10) == "16";
  }
}

=== FILE: renderer.dfy ===
/** The statement and declaration renderer: one visit per node kind,
    threading the writer state (sink, current procedure, suppression
    stacks) through the tree in document order. */
module Renderer {
  import opened Wrappers
  import opened Syntax
  import opened Literals
  import opened Identifiers
  import opened OutputSink
  import opened Expressions

  // ---- Writer state ----

  /** What the writer remembers of the procedure declaration it visited
      last: which visit it was, whether it has a body and how many
      statements that body holds. */
  datatype ProcedureInfo = ProcedureInfo(serial: nat, hasBody: bool, bodyCount: nat)

  /** The visitor's fields. `visited` counts procedure declarations visited
      so far and gives each one its serial; the two flag stacks are pushed
      and popped as the writer does, and never read. */
  datatype Writer = Writer(
    sink: Sink,
    procedure: Option<ProcedureInfo>,
    visited: nat,
    compoundFlags: seq<bool>,
    ifFlags: seq<bool>)

  /** The exceptions a bare return can raise: `mProcedure` is null, its
      body is null, or `Last()` is taken of an empty body. */
  datatype RenderError = NoCurrentProcedure | CurrentBodyNull | CurrentBodyEmpty

  type Outcome = Result<Writer, RenderError>

  /** Where a statement sits: the last statement of the body of the
      procedure with the given serial, or anywhere else. This stands for
      the reference comparison with `mProcedure.Body.Last()`. */
  datatype Position = LastOfBody(serial: nat) | Elsewhere

  /** A writer before anything is written. */
  const Start: Writer := Writer(Initial, None, 0, [], [])

  /** `w2` continues `w1`: text only appended, same indentation level, and
      an honest line flag stays honest. */
  predicate Follows(w1: Writer, w2: Writer) {
    && Appends(w1.sink, w2.sink)
    && (LineFlagHonest(w1.sink) ==> LineFlagHonest(w2.sink))
  }

  function WithSink(w: Writer, s: Sink): Writer {
    w.(sink := s)
  }

  function Push(flags: seq<bool>, b: bool): seq<bool> {
    flags + [b]
  }

  /** `Count != 0 && Pop()`: pops only a non-empty stack; the popped value
      is not used. */
  function PopIfAny(flags: seq<bool>): seq<bool> {
    if |flags| != 0 then flags[..|flags| - 1] else flags
  }

  // ---- The statement wrapper's policy ----

  /** Return statements and comments write their own indentation. */
  predicate SelfIndenting(st: Stmt) {
    st.Return? || st.Comment?
  }

  /** The kinds after which the wrapper writes `;` and a line terminator. */
  predicate HasTerminator(st: Stmt) {
    !(|| st.Compound? || st.For? || st.If? || st.Switch? || st.While?
      || st.Return? || st.Label? || (st.Declaration? && st.decl.Procedure?)
      || st.Comment?)
  }

  // ---- Leaf statements ----

  // A comment written by `WriteComment`: a `//` line when the content has
  // no line terminator, otherwise an indented block opener `/* `, the
  // content, and an indented ` /*` (an opener, not a closer) that leaves
  // the line open.
  function WriteComment(s: Sink, value: string): (r: Sink)
    ensures Appends(s, r) && LineFlagHonest(r)
    ensures '\n' !in value ==> r.text == s.text + Indentation(s.tabLevel) + "// " + value + NewLine && !r.insideLine
    ensures '\n' in value ==>
      r.text == s.text + Indentation(s.tabLevel) + "/* " + value + Indentation(s.tabLevel) + " /*"
    ensures '\n' in value ==> EndsWith(r.text, " /*") && r.insideLine
  {
    if '\n' in value then
      WriteIndented(Write(WriteIndented(s, "/* "), value), " /*")
    else
      WriteNewLine(Write(WriteIndented(s, "// "), value))
  }

  // A Comment node: an inline comment is indented, and closed with ` */`
  // on the same line.
  function RenderComment(content: string, inline: bool, s: Sink): (r: Sink)
    ensures Appends(s, r) && LineFlagHonest(r)
    ensures inline ==> r.text == s.text + Indentation(s.tabLevel) + "/* " + content + " */" && r.insideLine
    ensures !inline ==> r == WriteComment(s, content)
  {
    if inline then Write(Write(WriteIndented(s, "/* "), content), " */")
    else WriteComment(s, content)
  }

  /** A return statement. A bare return first looks up the last statement
      of the current procedure's body, which fails when there is no
      current procedure, it has no body or the body is empty; it then
      writes nothing when it is that last statement. */
  function RenderReturn(value: Option<Expr>, pos: Position, w: Writer): (r: Outcome)
    ensures value.Some? ==>
      r.Ok? && r.value.sink.text == w.sink.text + Indentation(w.sink.tabLevel) + "return" + ExprText(value.value) + ";" + NewLine
    ensures value.None? ==>
      (r == Err(NoCurrentProcedure) <==> w.procedure.None?) &&
      (r == Err(CurrentBodyNull) <==> w.procedure.Some? && !w.procedure.value.hasBody) &&
      (r == Err(CurrentBodyEmpty) <==> w.procedure.Some? && w.procedure.value.hasBody && w.procedure.value.bodyCount == 0)
    ensures r.Ok? ==> Follows(w, r.value) && r.value.procedure == w.procedure
    ensures r.Ok? && value.None? ==>
      (r.value == w <==> pos == LastOfBody(w.procedure.value.serial))
    ensures r.Ok? && r.value != w ==>
      r.value.sink.text == w.sink.text + Indentation(w.sink.tabLevel) + "return"
        + (if value.Some? then ExprText(value.value) else "") + ";" + NewLine
  {
    match value
    case None =>
      if w.procedure.None? then Err(NoCurrentProcedure)
      else if !w.procedure.value.hasBody then Err(CurrentBodyNull)
      else if w.procedure.value.bodyCount == 0 then Err(CurrentBodyEmpty)
      else if pos == LastOfBody(w.procedure.value.serial) then Ok(w)
      else Ok(WithSink(w, WriteStatementEnd(WriteIndented(w.sink, "return"))))
    case Some(e) =>
      Ok(WithSink(w, WriteStatementEnd(Write(WriteIndented(w.sink, "return"), ExprText(e)))))
  }

  /** The statements that hold no other statements, as the base visit
      writes them (the wrapper adds indentation and terminator). */
  function LeafText(st: Stmt): string
    requires st.ExprStmt? || st.Break? || st.Continue? || st.Goto?
  {
    match st
    case ExprStmt(e) => ExprText(e)
    case Break => "break"
    case Continue => "continue"
    case Goto(target) => "goto " + IdentifierText(target)
  }

  /** A label: its escaped name, `:` and a line terminator. */
  function WriteLabel(s: Sink, name: string): (r: Sink)
    ensures Appends(s, r) && LineFlagHonest(r) && !r.insideLine
    ensures r.text == s.text + IdentifierText(name) + ":" + NewLine
  {
    WriteNewLine(Write(Write(s, IdentifierText(name)), ":"))
  }

  // ---- Headers of the compound-bodied statements ----

  /** `while (<cond>)`. */
  function WhileHeader(s: Sink, cond: Expr): (r: Sink)
    ensures Appends(s, r) && LineFlagHonest(r)
  {
    Write(Write(Write(WriteWithSeparator(s, "while"), "("), ExprText(cond)), ")")
  }

  /** A line terminator, indentation, then `for (<init>; <cond>; <after>)`. */
  function ForHeader(s: Sink, init: Expr, cond: Expr, afterLoop: Expr): (r: Sink)
    ensures Appends(s, r) && LineFlagHonest(r)
  {
    var s1 := WriteWithSeparator(WriteNewLineAndIndent(s), "for");
    var s2 := Write(Write(Write(s1, "("), ExprText(init)), "; ");
    var s3 := Write(Write(s2, ExprText(cond)), "; ");
    Write(Write(s3, ExprText(afterLoop)), ")")
  }

  /** `if `, then the condition with parentheses added when it does not
      bring its own. */
  function IfHeader(s: Sink, cond: Expr): (r: Sink)
    ensures Appends(s, r) && LineFlagHonest(r)
  {
    var s1 := WriteWithSeparator(s, "if");
    if ConditionNeedsParentheses(cond) then Write(Write(Write(s1, "("), ExprText(cond)), ")")
    else Write(s1, ExprText(cond))
  }

  /** `switch (<on>)`, a line terminator and an indented `{` line. */
  function SwitchHeader(s: Sink, on: Expr): (r: Sink)
    ensures Appends(s, r) && LineFlagHonest(r)
  {
    var s1 := Write(Write(Write(WriteWithSeparator(s, "switch"), "("), ExprText(on)), ")");
    WriteIndentedLine(WriteNewLine(s1), "{")
  }

  /** A line terminator, an indented `}` line, and another terminator. */
  function SwitchFooter(s: Sink): (r: Sink)
    ensures Appends(s, r) && LineFlagHonest(r)
  {
    WriteNewLine(WriteIndentedLine(WriteNewLine(s), "}"))
  }

  // ---- Declarations without statements ----

  /** `function(<index in hex>) <type> <name>(<parameters>)`. The index is
      reinterpreted as unsigned and always written in hex. */
  function FunctionText(index: Int32, returnType: string, name: string, ps: seq<Parameter>): string {
    "function(" + HexText(index) + ") " + returnType + " " + IdentifierText(name) + ParametersText(ps)
  }

  /** The modifier's keyword, then its slot index in parentheses if it has
      one, written as a uint literal. */
  function ModifierText(m: Modifier, kw: ModifierKind -> string): string {
    kw(m.kind) + (if m.index.Some? then "(" + UIntLiteralText(m.index.value) + ")" else "")
  }

  /** `[<keyword>[(<slot>)] ]<type> <name>[ = <initializer>]`. */
  function VariableText(modifier: Option<Modifier>, typeName: string, name: string,
                        initializer: Option<Expr>, kw: ModifierKind -> string): string
  {
    var prefix := if modifier.Some? then ModifierText(modifier.value, kw) + " " else "";
    var init := if initializer.Some? then " = " + ExprText(initializer.value) else "";
    prefix + typeName + " " + IdentifierText(name) + init
  }

  // ---- Braces of a compound statement ----

  /** A fresh line if the current one is open, then `{` on a line at the
      current level; the statements that follow are one level deeper. */
  function OpenBlock(s: Sink): (r: Sink)
    ensures r.text == s.text + (if s.insideLine then NewLine else "") + Indentation(s.tabLevel) + "{" + NewLine
    ensures r.tabLevel == s.tabLevel + 1 && !r.insideLine && LineFlagHonest(r)
  {
    var s0 := if s.insideLine then WriteNewLine(s) else s;
    IncreaseIndentation(WriteIndentedLine(s0, "{"))
  }

  /** `}` on a line at the current level. Only a nested block (level above
      0) ends an open line first; at level 0 the `}` is written after
      whatever the line holds. */
  function CloseBlock(s: Sink): (r: Sink)
    ensures Appends(s, r) && !r.insideLine && LineFlagHonest(r)
    ensures r.text == s.text + (if s.tabLevel != 0 && s.insideLine then NewLine else "")
      + Indentation(s.tabLevel) + "}" + NewLine
    ensures EndsWith(r.text, Indentation(s.tabLevel) + "}" + NewLine)
    ensures s.tabLevel > 0 && LineFlagHonest(s) && |s.text| > 0 ==>
      EndsWith(r.text, NewLine + Indentation(s.tabLevel) + "}" + NewLine)
  {
    var s1 := if s.tabLevel != 0 && s.insideLine then WriteNewLine(s) else s;
    ClosingLine(s1);
    WriteIndentedLine(s1, "}")
  }

  lemma ClosingLine(s: Sink)
    ensures EndsWith(WriteIndentedLine(s, "}").text, Indentation(s.tabLevel) + "}" + NewLine)
    ensures |s.text| > 0 && s.text[|s.text| - 1] == '\n' ==>
      EndsWith(WriteIndentedLine(s, "}").text, NewLine + Indentation(s.tabLevel) + "}" + NewLine)
  {
    var closing := Indentation(s.tabLevel) + "}" + NewLine;
    var r := WriteIndentedLine(s, "}");
    assert r.text[|r.text| - |closing|..] == closing;
    if |s.text| > 0 && s.text[|s.text| - 1] == '\n' {
      assert r.text[|r.text| - |NewLine + closing|..] == [s.text[|s.text| - 1]] + closing;
      assert NewLine + Indentation(s.tabLevel) + "}" + NewLine == NewLine + closing;
    }
  }

  // ---- The recursive visit ----

  /** The statement wrapper: indentation unless the statement indents
      itself, the statement, then `;` and a line terminator for the kinds
      that take one. */
  function RenderStatement(st: Stmt, pos: Position, w: Writer, kw: ModifierKind -> string): (r: Outcome)
    ensures r.Ok? ==> r.value.sink.tabLevel == w.sink.tabLevel
    decreases st, 3
  {
    var w1 := if SelfIndenting(st) then w else WithSink(w, WriteIndentation(w.sink));
    var w2 :- RenderKind(st, pos, w1, kw);
    Ok(if HasTerminator(st) then WithSink(w2, WriteStatementEnd(w2.sink)) else w2)
  }

  /** The visit for each statement kind. */
  function RenderKind(st: Stmt, pos: Position, w: Writer, kw: ModifierKind -> string): (r: Outcome)
    ensures r.Ok? ==> r.value.sink.tabLevel == w.sink.tabLevel
    decreases st, 2
  {
    match st
    case ExprStmt(_) => Ok(WithSink(w, Write(w.sink, LeafText(st))))
    case Break => Ok(WithSink(w, Write(w.sink, LeafText(st))))
    case Continue => Ok(WithSink(w, Write(w.sink, LeafText(st))))
    case Goto(_) => Ok(WithSink(w, Write(w.sink, LeafText(st))))
    case Label(name) => Ok(WithSink(w, WriteLabel(w.sink, name)))
    case Comment(content, inline) => Ok(WithSink(w, RenderComment(content, inline, w.sink)))
    case Return(value) => RenderReturn(value, pos, w)
    case Compound(ss) => RenderCompound(ss, None, w, kw)
    case If(_, _, _) => RenderIf(st, w, kw)
    case While(cond, body) => RenderCompound(body, None, WithSink(w, WhileHeader(w.sink, cond)), kw)
    case For(init, cond, afterLoop, body) =>
      RenderCompound(body, None, WithSink(w, ForHeader(w.sink, init, cond, afterLoop)), kw)
    case Switch(on, labels) =>
      var w1 :- RenderLabels(labels, 0, WithSink(w, SwitchHeader(w.sink, on)), kw);
      Ok(WithSink(w1, SwitchFooter(w1.sink)))
    case Declaration(d) => RenderDeclaration(d, w, kw)
  }

  /** A compound statement: a fresh line if the current one is open, `{`
      on its own line, the statements one level deeper, then `}` on a line
      of its own, except at level 0 where `}` follows whatever the last
      statement left on an open line. `owner` is the serial of the
      procedure whose body this is, if it is one. */
  function RenderCompound(ss: seq<Stmt>, owner: Option<nat>, w: Writer, kw: ModifierKind -> string): (r: Outcome)
    ensures r.Ok? ==> r.value.sink.tabLevel == w.sink.tabLevel
    decreases ss, 2
  {
    var w1 :- RenderStatementsFrom(ss, 0, owner, w.(sink := OpenBlock(w.sink), compoundFlags := PopIfAny(w.compoundFlags)), kw);
    Ok(WithSink(w1, CloseBlock(DecreaseIndentation(w1.sink))))
  }

  /** The statements of a compound from index `i` on, each through the
      wrapper; the last one of a procedure body gets that body's position. */
  function RenderStatementsFrom(ss: seq<Stmt>, i: nat, owner: Option<nat>, w: Writer, kw: ModifierKind -> string): (r: Outcome)
    requires i <= |ss|
    ensures r.Ok? ==> r.value.sink.tabLevel == w.sink.tabLevel
    decreases ss, 1, |ss| - i
  {
    if i == |ss| then Ok(w)
    else
      var pos := if owner.Some? && i == |ss| - 1 then LastOfBody(owner.value) else Elsewhere;
      var w1 :- RenderStatement(ss[i], pos, w, kw);
      RenderStatementsFrom(ss, i + 1, owner, w1, kw)
  }

  /** An if statement: `if`, the condition, and the body if there is one;
      then the else part if there is an else body. */
  function RenderIf(st: Stmt, w: Writer, kw: ModifierKind -> string): (r: Outcome)
    requires st.If?
    ensures r.Ok? ==> r.value.sink.tabLevel == w.sink.tabLevel
    decreases st, 1
  {
    var w1 := WithSink(w, IfHeader(w.sink, st.cond));
    if st.elseBody.NoBlock? then
      (var w2 := w1.(compoundFlags := Push(w1.compoundFlags, false), ifFlags := Push(w1.ifFlags, false));
       if st.body.Block? then RenderCompound(st.body.stmts, None, w2, kw) else Ok(w2))
    else
      var w2 := w1.(compoundFlags := Push(w1.compoundFlags, true));
      var w3 :- if st.body.Block? then RenderCompound(st.body.stmts, None, w2, kw) else Ok(w2);
      RenderElse(st, w3, kw)
  }

  /** The else part of an if statement: an indented `else `, then either
      the single nested if of the else body, written directly so the chain
      reads `else if`, or the else body as a compound. */
  function RenderElse(st: Stmt, w: Writer, kw: ModifierKind -> string): (r: Outcome)
    requires st.If? && st.elseBody.Block?
    ensures r.Ok? ==> r.value.sink.tabLevel == w.sink.tabLevel
    decreases st, 0
  {
    var w1 := WithSink(w, WriteWithSeparator(WriteIndentation(w.sink), "else"));
    var es := st.elseBody.stmts;
    if |es| == 1 && es[0].If? then
      // the loop over the remaining else statements starts at index 1
      // of a one-statement body, so it never runs
      RenderIf(es[0], w1.(ifFlags := Push(w1.ifFlags, true)), kw)
    else
      RenderCompound(es, None, w1.(ifFlags := Push(w1.ifFlags, false)), kw)
  }

  /** The labels of a switch from index `i` on: a case label's condition,
      then its statements through the wrapper. */
  function RenderLabels(labels: seq<SwitchLabel>, i: nat, w: Writer, kw: ModifierKind -> string): (r: Outcome)
    requires i <= |labels|
    ensures r.Ok? ==> r.value.sink.tabLevel == w.sink.tabLevel
    decreases labels, 1, |labels| - i
  {
    if i == |labels| then Ok(w)
    else
      var w1 := if labels[i].CaseLabel? then WithSink(w, Write(w.sink, ExprText(labels[i].condition))) else w;
      var w2 :- RenderStatementsFrom(labels[i].labelBody, 0, None, w1, kw);
      RenderLabels(labels, i + 1, w2, kw)
  }

  /** A declaration. Visiting a procedure makes it the current procedure,
      with the next serial. */
  function RenderDeclaration(d: Decl, w: Writer, kw: ModifierKind -> string): (r: Outcome)
    ensures r.Ok? ==> r.value.sink.tabLevel == w.sink.tabLevel
    decreases d, 1
  {
    match d
    case Function(index, returnType, name, ps) =>
      Ok(WithSink(w, Write(w.sink, FunctionText(index, returnType, name, ps))))
    case Variable(modifier, typeName, name, initializer) =>
      Ok(WithSink(w, Write(w.sink, VariableText(modifier, typeName, name, initializer, kw))))
    case Procedure(returnType, name, ps, body) =>
      var w1 := EnterProcedure(w, body);
      var s := ProcedureHeader(w.sink, returnType, name, ps);
      if body.NoBlock? then Ok(WithSink(w1, WriteStatementEnd(s)))
      else RenderCompound(body.stmts, Some(w.visited), WithSink(w1, s), kw)
  }

  /** `<type> <name>(<parameters>)`. */
  function ProcedureHeader(s: Sink, returnType: string, name: string, ps: seq<Parameter>): Sink {
    WriteParameters(Write(Write(Write(s, returnType), " "), IdentifierText(name)), ps)
  }

  /** The procedure being visited becomes the current one, under the next
      serial. */
  function EnterProcedure(w: Writer, body: OptBlock): Writer {
    var info := ProcedureInfo(w.visited, body.Block?, if body.Block? then |body.stmts| else 0);
    w.(procedure := Some(info), visited := w.visited + 1)
  }

  /** A procedure with a body is its header followed by the body as a
      compound, owned by the procedure's serial. */
  lemma ProcedureWithBody(d: Decl, w: Writer, kw: ModifierKind -> string)
    requires d.Procedure? && d.procBody.Block?
    ensures RenderDeclaration(d, w, kw) ==
      RenderCompound(d.procBody.stmts, Some(w.visited),
        WithSink(EnterProcedure(w, d.procBody), ProcedureHeader(w.sink, d.returnType, d.name, d.params)), kw)
  {
  }

  /** A procedure without a body is its header and a terminator. */
  lemma ProcedureWithoutBody(d: Decl, w: Writer, kw: ModifierKind -> string)
    requires d.Procedure? && d.procBody.NoBlock?
    ensures RenderDeclaration(d, w, kw) ==
      Ok(WithSink(EnterProcedure(w, d.procBody), WriteStatementEnd(ProcedureHeader(w.sink, d.returnType, d.name, d.params))))
  {
  }
}

=== FILE: shapes.dfy ===
/** What the statement writers put on the page, stated as text: the
    headers of the compound-bodied statements, the wrapper's indentation
    and terminator, and the `else if` chain. */
module StatementShapes {
  import opened Wrappers
  import opened Syntax
  import opened OutputSink
  import opened Expressions
  import opened Renderer
  import opened RenderInvariants

  // ---- Headers ----

  lemma WhileHeaderText(s: Sink, cond: Expr)
    ensures WhileHeader(s, cond).text == s.text + "while (" + ExprText(cond) + ")"
    ensures WhileHeader(s, cond).insideLine
  {
  }

  lemma ForHeaderText(s: Sink, init: Expr, cond: Expr, afterLoop: Expr)
    ensures ForHeader(s, init, cond, afterLoop).text ==
      s.text + NewLine + Indentation(s.tabLevel) + "for ("
        + ExprText(init) + "; " + ExprText(cond) + "; " + ExprText(afterLoop) + ")"
    ensures ForHeader(s, init, cond, afterLoop).insideLine
  {
  }

  /** The if header is `if ` and the condition, parenthesised when it
      does not bring its own parentheses. */
  lemma IfHeaderText(s: Sink, cond: Expr)
    ensures IfHeader(s, cond).text == s.text + "if " + IfConditionText(cond)
    ensures IfHeader(s, cond).insideLine
  {
    var s1 := WriteWithSeparator(s, "if");
    var e := ExprText(cond);
    if ConditionNeedsParentheses(cond) {
      assert IfHeader(s, cond).text == s1.text + "(" + e + ")";
      assert IfConditionText(cond) == "(" + e + ")";
    } else {
      assert IfHeader(s, cond).text == s1.text + e;
      assert IfConditionText(cond) == e;
    }
  }

  /** Either way the condition sits in exactly one outer pair of
      parentheses. */
  lemma IfHeaderParenthesisedOnce(s: Sink, cond: Expr)
    ensures IfHeader(s, cond).text == s.text + "if (" + ConditionCore(cond) + ")"
  {
    IfHeaderText(s, cond);
    IfConditionParenthesisedOnce(cond);
    var c := ConditionCore(cond);
    assert s.text + "if " + ("(" + c + ")") == s.text + "if (" + c + ")";
  }

  lemma SwitchHeaderText(s: Sink, on: Expr)
    ensures SwitchHeader(s, on).text ==
      s.text + "switch (" + ExprText(on) + ")" + NewLine + Indentation(s.tabLevel) + "{" + NewLine
    ensures !SwitchHeader(s, on).insideLine
  {
    var e := ExprText(on);
    var s1 := Write(Write(Write(WriteWithSeparator(s, "switch"), "("), e), ")");
    assert s1.text == s.text + "switch (" + e + ")";
    var s2 := WriteNewLine(s1);
    assert WriteIndentedLine(s2, "{").text == s2.text + Indentation(s.tabLevel) + "{" + NewLine;
  }

  lemma SwitchFooterText(s: Sink)
    ensures SwitchFooter(s).text == s.text + NewLine + Indentation(s.tabLevel) + "}" + NewLine + NewLine
    ensures !SwitchFooter(s).insideLine
  {
  }

  // ---- The statement wrapper ----

  /** Every statement except a return or a comment starts with the current
      indentation; a statement of a terminated kind ends with `;` and a
      line terminator. A return or a comment gets nothing from the wrapper,
      and the other unterminated kinds get only the indentation. */
  lemma {:induction false} WrapperShape(st: Stmt, pos: Position, w: Writer, kw: ModifierKind -> string)
    ensures var r := RenderStatement(st, pos, w, kw);
      r.Ok? ==>
        && (!SelfIndenting(st) ==> w.sink.text + Indentation(w.sink.tabLevel) <= r.value.sink.text)
        && (HasTerminator(st) ==> EndsWith(r.value.sink.text, ";" + NewLine) && !r.value.sink.insideLine)
    ensures SelfIndenting(st) ==> RenderStatement(st, pos, w, kw) == RenderKind(st, pos, w, kw)
    ensures !SelfIndenting(st) && !HasTerminator(st) ==>
      RenderStatement(st, pos, w, kw) == RenderKind(st, pos, WithSink(w, WriteIndentation(w.sink)), kw)
    ensures HasTerminator(st) ==>
      var k := RenderKind(st, pos, WithSink(w, WriteIndentation(w.sink)), kw);
      var r := RenderStatement(st, pos, w, kw);
      r.Ok? == k.Ok? && (r.Ok? ==> r.value.sink.text == k.value.sink.text + ";" + NewLine)
  {
    var w1 := if SelfIndenting(st) then w else WithSink(w, WriteIndentation(w.sink));
    KindFollows(st, pos, w1, kw);
    var r2 := RenderKind(st, pos, w1, kw);
    if r2.Ok? {
      var fin := if HasTerminator(st) then WithSink(r2.value, WriteStatementEnd(r2.value.sink)) else r2.value;
      assert RenderStatement(st, pos, w, kw) == Ok(fin);
      if HasTerminator(st) {
        var t := fin.sink.text;
        assert t == r2.value.sink.text + ";" + NewLine;
        assert t[|t| - 2..] == ";" + NewLine;
      } else {
        assert RenderStatement(st, pos, w, kw) == r2;
      }
    } else {
      assert RenderStatement(st, pos, w, kw) == Err(r2.error);
    }
  }

  // ---- The else-if chain ----

  /** An if statement's output starts with `if `. */
  lemma IfStartsWithKeyword(st: Stmt, w: Writer, kw: ModifierKind -> string)
    requires st.If?
    ensures RenderIf(st, w, kw).Ok? ==> w.sink.text + "if " <= RenderIf(st, w, kw).value.sink.text
  {
    var w1 := WithSink(w, IfHeader(w.sink, st.cond));
    IfFollows(st, w, kw);
    IfHeaderText(w.sink, st.cond);
    var r := RenderIf(st, w, kw);
    if r.Ok? {
      if st.elseBody.NoBlock? {
        var w2 := w1.(compoundFlags := Push(w1.compoundFlags, false), ifFlags := Push(w1.ifFlags, false));
        if st.body.Block? {
          CompoundFollows(st.body.stmts, None, w2, kw);
        }
      } else {
        var w2 := w1.(compoundFlags := Push(w1.compoundFlags, true));
        if st.body.Block? {
          CompoundFollows(st.body.stmts, None, w2, kw);
        }
        var w3 := if st.body.Block? then RenderCompound(st.body.stmts, None, w2, kw).value else w2;
        ElseFollows(st, w3, kw);
      }
      PrefixTrans(w.sink.text + "if ", w1.sink.text, r.value.sink.text);
    }
  }

  /** An else body that is exactly one if statement is written on the
      `else` line, so the chain reads `else if`; any other else body opens
      a block on the next line. */
  lemma ElseIfFlattened(st: Stmt, w: Writer, kw: ModifierKind -> string)
    requires st.If? && st.elseBody.Block?
    ensures var r := RenderElse(st, w, kw);
      var es := st.elseBody.stmts;
      var head := w.sink.text + Indentation(w.sink.tabLevel) + "else ";
      r.Ok? ==>
        && (|es| == 1 && es[0].If? ==> head + "if " <= r.value.sink.text)
        && (!(|es| == 1 && es[0].If?) ==>
              head + NewLine + Indentation(w.sink.tabLevel) + "{" + NewLine <= r.value.sink.text)
  {
    var w1 := WithSink(w, WriteWithSeparator(WriteIndentation(w.sink), "else"));
    var head := w.sink.text + Indentation(w.sink.tabLevel) + "else ";
    assert w1.sink.text == head;
    var es := st.elseBody.stmts;
    if |es| == 1 && es[0].If? {
      IfStartsWithKeyword(es[0], w1.(ifFlags := Push(w1.ifFlags, true)), kw);
    } else {
      var w2 := w1.(ifFlags := Push(w1.ifFlags, false));
      CompoundShape(es, None, w2, kw);
      assert OpenBlock(w2.sink).text == head + NewLine + Indentation(w.sink.tabLevel) + "{" + NewLine;
    }
  }
}

=== FILE: sink.dfy ===
/** The writer's output state: the text written so far, the indentation
    level and whether the cursor is in the middle of a line. */
module OutputSink {

  /** The line terminator, one token standing for `Environment.NewLine`. */
  const NewLine: string := "\n"

  /** One level of indentation. */
  const IndentationToken: string := "  "

  datatype Sink = Sink(text: string, tabLevel: nat, insideLine: bool)

  /** A fresh writer: nothing written, level 0, at the start of a line. */
  const Initial: Sink := Sink("", 0, false)

  predicate EndsWith(s: string, suffix: string) {
    |suffix| <= |s| && s[|s| - |suffix|..] == suffix
  }

  /** The line flag tells the truth: when it says the cursor is at the start
      of a line, nothing has been written or the last thing written was a
      line terminator. */
  predicate LineFlagHonest(s: Sink) {
    s.insideLine || |s.text| == 0 || s.text[|s.text| - 1] == '\n'
  }

  /** `r` is `s` with text appended and the same indentation level. */
  predicate Appends(s: Sink, r: Sink) {
    s.text <= r.text && r.tabLevel == s.tabLevel
  }

  /** The whitespace for an indentation level: two spaces per level. */
  function Indentation(level: nat): (r: string)
    ensures |r| == 2 * level
    ensures forall i :: 0 <= i < |r| ==> r[i] == ' '
  {
    if level == 0 then "" else IndentationToken + Indentation(level - 1)
  }

  function Write(s: Sink, value: string): (r: Sink)
    ensures Appends(s, r) && r.text == s.text + value
    ensures r.insideLine && LineFlagHonest(r)
  {
    s.(text := s.text + value, insideLine := true)
  }

  function WriteLine(s: Sink, value: string): (r: Sink)
    ensures Appends(s, r) && r.text == s.text + value + NewLine
    ensures !r.insideLine && LineFlagHonest(r)
  {
    s.(text := s.text + value + NewLine, insideLine := false)
  }

  function WriteNewLine(s: Sink): (r: Sink)
    ensures Appends(s, r) && r.text == s.text + NewLine
    ensures !r.insideLine && LineFlagHonest(r)
  {
    s.(text := s.text + NewLine, insideLine := false)
  }

  /** Writes the current level's indentation and marks the line as started,
      even at level 0 where nothing is written. */
  function WriteIndentation(s: Sink): (r: Sink)
    ensures Appends(s, r) && r.text == s.text + Indentation(s.tabLevel)
    ensures |r.text| == |s.text| + 2 * s.tabLevel
    ensures r.insideLine && LineFlagHonest(r)
  {
    s.(text := s.text + Indentation(s.tabLevel), insideLine := true)
  }

  function WriteWithSeparator(s: Sink, value: string): (r: Sink)
    ensures Appends(s, r) && r.text == s.text + value + " "
    ensures r.insideLine && LineFlagHonest(r)
  {
    Write(Write(s, value), " ")
  }

  function WriteNewLineAndIndent(s: Sink): (r: Sink)
    ensures Appends(s, r) && r.text == s.text + NewLine + Indentation(s.tabLevel)
    ensures r.insideLine && LineFlagHonest(r)
  {
    WriteIndentation(WriteNewLine(s))
  }

  function WriteIndented(s: Sink, value: string): (r: Sink)
    ensures Appends(s, r) && r.text == s.text + Indentation(s.tabLevel) + value
    ensures r.insideLine && LineFlagHonest(r)
  {
    Write(WriteIndentation(s), value)
  }

  function WriteIndentedLine(s: Sink, value: string): (r: Sink)
    ensures Appends(s, r) && r.text == s.text + Indentation(s.tabLevel) + value + NewLine
    ensures !r.insideLine && LineFlagHonest(r)
  {
    WriteNewLine(WriteIndented(s, value))
  }

  /** `;` and a line terminator. */
  function WriteStatementEnd(s: Sink): (r: Sink)
    ensures Appends(s, r) && r.text == s.text + ";" + NewLine
    ensures !r.insideLine && LineFlagHonest(r)
  {
    WriteLine(s, ";")
  }

  function IncreaseIndentation(s: Sink): Sink {
    s.(tabLevel := s.tabLevel + 1)
  }

  function DecreaseIndentation(s: Sink): Sink
    requires s.tabLevel > 0
  {
    s.(tabLevel := s.tabLevel - 1)
  }
}

=== FILE: syntax.dfy ===
/** The FlowScript syntax tree that the writer walks. Only the node kinds the
    writer renders are present; every child field the writer dereferences
    without a null check is a plain (non-optional) field here. */
module Syntax {
  import opened Wrappers

  /** A C# `uint`: 32 bits, unsigned. */
  type UInt32 = bv32

  /** A C# `int`, held as its two's-complement bit pattern, so that the
      writer's `(uint)` casts and `& 0xF` masks are exact. */
  type Int32 = bv32

  /** The number a C# `int` bit pattern stands for. */
  function SignedValue(i: Int32): int {
    if i < 0x8000_0000 then i as int else i as int - 0x1_0000_0000
  }

  datatype UnaryOp =
    | LogicalNot
    | Negation
    | PrefixIncrement
    | PrefixDecrement
    | PostfixIncrement
    | PostfixDecrement
  {
    /** Increment and decrement written after their operand. */
    predicate IsPostfix() {
      this == PostfixIncrement || this == PostfixDecrement
    }
  }

  datatype BinaryOp =
    | Addition
    | Subtraction
    | Multiplication
    | Division
    | Equality
    | NonEquality
    | LessThan
    | LessThanOrEqual
    | GreaterThan
    | GreaterThanOrEqual
    | LogicalAnd
    | LogicalOr
    | Assignment
    | AdditionAssignment
    | SubtractionAssignment
    | MultiplicationAssignment
    | DivisionAssignment
  {
    /** The operators whose node class derives from AssignmentOperatorBase. */
    predicate IsAssignment() {
      || this == Assignment
      || this == AdditionAssignment
      || this == SubtractionAssignment
      || this == MultiplicationAssignment
      || this == DivisionAssignment
    }
  }

  datatype Expr =
    | BoolLiteral(b: bool)
    | IntLiteral(i: Int32)
    | UIntLiteral(u: UInt32)
    | StringLiteral(s: string)
    | Identifier(text: string)
    | TypeIdentifier(text: string)
    | MemberAccess(operand: Expr, member: string)
    | Call(callee: string, args: seq<Expr>)
    | Unary(uop: UnaryOp, operand: Expr)
    | Binary(bop: BinaryOp, left: Expr, right: Expr)

  /** A procedure or function parameter: type name and parameter name. */
  datatype Parameter = Parameter(typeName: string, name: string)

  /** A variable modifier kind; its keyword comes from a dictionary that is
      not part of this model. */
  datatype ModifierKind = ModifierKind(code: nat)

  datatype Modifier = Modifier(kind: ModifierKind, index: Option<UInt32>)

  /** A CompoundStatement-typed field that may be null. */
  datatype OptBlock = NoBlock | Block(stmts: seq<Stmt>)

  datatype Stmt =
    | ExprStmt(e: Expr)
    | Compound(stmts: seq<Stmt>)
    | If(cond: Expr, body: OptBlock, elseBody: OptBlock)
    | While(cond: Expr, loopBody: seq<Stmt>)
    | For(init: Expr, cond: Expr, afterLoop: Expr, loopBody: seq<Stmt>)
    | Switch(switchOn: Expr, labels: seq<SwitchLabel>)
    | Return(value: Option<Expr>)
    | Break
    | Continue
    | Goto(target: string)
    | Label(name: string)
    | Comment(content: string, inline: bool)
    | Declaration(decl: Decl)

  /** A `case <condition>:` label or the `default:` label of a switch, with
      the statements under it. */
  datatype SwitchLabel =
    | CaseLabel(condition: Expr, labelBody: seq<Stmt>)
    | DefaultLabel(labelBody: seq<Stmt>)

  datatype Decl =
    | Function(index: Int32, returnType: string, name: string, params: seq<Parameter>)
    | Variable(modifier: Option<Modifier>, typeName: string, name: string, initializer: Option<Expr>)
    | Procedure(returnType: string, name: string, params: seq<Parameter>, procBody: OptBlock)

  datatype CompilationUnit = CompilationUnit(imports: seq<string>, declarations: seq<Decl>)
}

=== FILE: unit.dfy ===
/** A whole compilation unit: an import block when there are imports,
    then the declarations in order, each group of function prototypes and
    of script-level variables announced by a comment banner the first time
    one of its kind appears. */
module Unit {
  import opened Wrappers
  import opened Syntax
  import opened Identifiers
  import opened OutputSink
  import opened Expressions
  import opened Renderer
  import opened RenderInvariants

  // ---- Banners and imports ----

  const ImportsTitle: string := "Imports"
  const FunctionsTitle: string := "Function prototypes"
  const VariablesTitle: string := "Script-level variable definitions"

  /** The three titles fit on one line, so each banner is three `//`
      lines. */
  lemma ImportsTitleSingleLine()
    ensures '\n' !in ImportsTitle
  {
  }

  lemma FunctionsTitleSingleLine()
    ensures '\n' !in FunctionsTitle
  {
  }

  lemma VariablesTitleSingleLine()
    ensures '\n' !in VariablesTitle
  {
  }

  /** A banner as it reads at the current level: an empty line, a `//`
      line, the title as a `//` line, another `//` line, an empty line. */
  function BannerText(level: nat, title: string): string {
    NewLine
      + Indentation(level) + "// " + NewLine
      + Indentation(level) + "// " + title + NewLine
      + Indentation(level) + "// " + NewLine
      + NewLine
  }

  /** The banner writer: a line terminator, three comments, a line
      terminator. */
  function WriteBanner(s: Sink, title: string): (r: Sink)
    ensures Appends(s, r) && !r.insideLine && LineFlagHonest(r)
  {
    WriteNewLine(WriteComment(WriteComment(WriteComment(WriteNewLine(s), ""), title), ""))
  }

  /** A single-line title gives the banner text. */
  lemma BannerWritten(s: Sink, title: string)
    requires '\n' !in title
    ensures WriteBanner(s, title).text == s.text + BannerText(s.tabLevel, title)
  {
    var ind := Indentation(s.tabLevel);
    var s1 := WriteNewLine(s);
    var s2 := WriteComment(s1, "");
    assert s2.text == s1.text + ind + "// " + "" + NewLine;
    var s3 := WriteComment(s2, title);
    assert s3.text == s2.text + ind + "// " + title + NewLine;
    var s4 := WriteComment(s3, "");
    assert s4.text == s3.text + ind + "// " + "" + NewLine;
  }

  /** One import: `import("<file>");` on its own line. */
  function ImportLine(file: string): string {
    "import(" + QuotedText(file) + ");" + NewLine
  }

  /** Writing one import appends its line; the file name reads back from
      between the parentheses. */
  function WriteImport(s: Sink, file: string): (r: Sink)
    ensures Appends(s, r) && !r.insideLine && LineFlagHonest(r)
    ensures r.text == s.text + ImportLine(file)
  {
    WriteStatementEnd(Write(Write(Write(Write(s, "import"), "("), QuotedText(file)), ")"))
  }

  /** The file name reads back from between the parentheses of its import
      line. */
  lemma ImportNameReadsBack(file: string)
    ensures var line := ImportLine(file);
      |line| >= 10 && line[..7] == "import(" && Unquote(line[7..|line| - 3]) == Some(file)
  {
    var line := ImportLine(file);
    assert line == "import(" + QuotedText(file) + ");" + NewLine;
    assert line[7..|line| - 3] == QuotedText(file);
  }

  /** The import lines, in order. */
  function ImportLines(files: seq<string>): string {
    if |files| == 0 then "" else ImportLine(files[0]) + ImportLines(files[1..])
  }

  /** The writer's loop over the imports from index `i` on. */
  function WriteImportsFrom(files: seq<string>, i: nat, s: Sink): (r: Sink)
    requires i <= |files|
    ensures Appends(s, r) && (LineFlagHonest(s) ==> LineFlagHonest(r))
    ensures !s.insideLine ==> !r.insideLine
    decreases |files| - i
  {
    if i == |files| then s else WriteImportsFrom(files, i + 1, WriteImport(s, files[i]))
  }

  /** The loop writes exactly the import lines, in order. */
  lemma {:induction false} ImportsWritten(files: seq<string>, i: nat, s: Sink)
    requires i <= |files|
    ensures WriteImportsFrom(files, i, s).text == s.text + ImportLines(files[i..])
    decreases |files| - i
  {
    if i < |files| {
      var s1 := WriteImport(s, files[i]);
      ImportsWritten(files, i + 1, s1);
      assert files[i..][1..] == files[i + 1..];
      assert ImportLines(files[i..]) == ImportLine(files[i]) + ImportLines(files[i + 1..]);
    } else {
      assert files[i..] == [];
    }
  }

  /** The import block, written only when there are imports. */
  function WriteImports(s: Sink, files: seq<string>): (r: Sink)
    ensures Appends(s, r)
    ensures |files| == 0 ==> r == s
    ensures |files| > 0 || !s.insideLine ==> !r.insideLine
  {
    if |files| > 0 then WriteImportsFrom(files, 0, WriteBanner(s, ImportsTitle)) else s
  }

  /** The import block as it reads: the banner, then the import lines. */
  function ImportsBlockText(level: nat, files: seq<string>): string {
    BannerText(level, ImportsTitle) + ImportLines(files)
  }

  lemma ImportsBlock(s: Sink, files: seq<string>)
    requires 0 < |files|
    ensures WriteImports(s, files).text == s.text + ImportsBlockText(s.tabLevel, files)
  {
    var b := WriteBanner(s, ImportsTitle);
    ImportsTitleSingleLine();
    BannerWritten(s, ImportsTitle);
    assert files[0..] == files;
    ImportsWritten(files, 0, b);
    Associative(s.text, BannerText(s.tabLevel, ImportsTitle), ImportLines(files));
  }

  lemma Associative(a: string, b: string, c: string)
    ensures a + b + c == a + (b + c)
  {
  }

  // ---- Declarations ----

  predicate FunctionBefore(ds: seq<Decl>, i: nat)
    requires i <= |ds|
  {
    exists j :: 0 <= j < i && ds[j].Function?
  }

  predicate VariableBefore(ds: seq<Decl>, i: nat)
    requires i <= |ds|
  {
    exists j :: 0 <= j < i && ds[j].Variable?
  }

  /** The banner a declaration opens, if any: the first function opens
      the prototypes group, the first variable the variables group. */
  function Banners(d: Decl, seenFunction: bool, seenVariable: bool, s: Sink): (r: Sink)
    ensures Appends(s, r)
  {
    var s1 := if !seenFunction && d.Function? then WriteBanner(s, FunctionsTitle) else s;
    if !seenVariable && d.Variable? then WriteBanner(s1, VariablesTitle) else s1
  }

  /** One top-level declaration: the banner of its group if it is the
      first function or the first variable, the declaration, then `;` and
      a line terminator unless it is a procedure. */
  function TopLevelStep(d: Decl, seenFunction: bool, seenVariable: bool, w: Writer, kw: ModifierKind -> string): (r: Outcome)
    ensures r.Ok? ==> r.value.sink.tabLevel == w.sink.tabLevel
  {
    var w1 :- RenderDeclaration(d, WithSink(w, Banners(d, seenFunction, seenVariable, w.sink)), kw);
    Ok(if d.Procedure? then w1 else WithSink(w1, WriteStatementEnd(w1.sink)))
  }

  /** The declarations from index `i` on, each told whether a function or
      a variable came before it. */
  function DeclarationsFrom(ds: seq<Decl>, i: nat, w: Writer, kw: ModifierKind -> string): (r: Outcome)
    requires i <= |ds|
    ensures r.Ok? ==> r.value.sink.tabLevel == w.sink.tabLevel
    decreases |ds| - i
  {
    if i == |ds| then Ok(w)
    else
      var w1 :- TopLevelStep(ds[i], FunctionBefore(ds, i), VariableBefore(ds, i), w, kw);
      DeclarationsFrom(ds, i + 1, w1, kw)
  }

  /** A fresh writer after the import block. */
  function AfterImports(cu: CompilationUnit): (w: Writer)
    ensures w.sink.tabLevel == 0 && !w.sink.insideLine
    ensures w.procedure.None? && w.visited == 0
  {
    WithSink(Start, WriteImports(Initial, cu.imports))
  }

  /** The whole unit, from a fresh writer. */
  function RenderUnit(cu: CompilationUnit, kw: ModifierKind -> string): (r: Outcome)
    ensures r.Ok? ==> r.value.sink.tabLevel == 0
  {
    DeclarationsFrom(cu.declarations, 0, AfterImports(cu), kw)
  }

  /** A procedure declaration always ends at the start of a line: after
      `;` when it has no body, after the closing brace when it has one. */
  lemma ProcedureEndsLine(d: Decl, w: Writer, kw: ModifierKind -> string)
    requires d.Procedure?
    ensures RenderDeclaration(d, w, kw).Ok? ==> !RenderDeclaration(d, w, kw).value.sink.insideLine
  {
    if d.procBody.Block? {
      ProcedureWithBody(d, w, kw);
      CompoundShape(d.procBody.stmts, Some(w.visited),
        WithSink(EnterProcedure(w, d.procBody), ProcedureHeader(w.sink, d.returnType, d.name, d.params)), kw);
    } else {
      ProcedureWithoutBody(d, w, kw);
    }
  }

  /** A function or variable step is its declaration followed by `;`. */
  lemma TerminatedStep(d: Decl, seenFunction: bool, seenVariable: bool, w: Writer, kw: ModifierKind -> string)
    requires !d.Procedure?
    ensures var r := RenderDeclaration(d, WithSink(w, Banners(d, seenFunction, seenVariable, w.sink)), kw);
      r.Ok? ==> TopLevelStep(d, seenFunction, seenVariable, w, kw) == Ok(WithSink(r.value, WriteStatementEnd(r.value.sink)))
  {
  }

  lemma FunctionDeclarationWrites(d: Decl, w: Writer, kw: ModifierKind -> string)
    requires d.Function?
    ensures RenderDeclaration(d, w, kw) == Ok(WithSink(w, Write(w.sink, FunctionText(d.index, d.returnType, d.name, d.params))))
  {
  }

  lemma VariableDeclarationWrites(d: Decl, w: Writer, kw: ModifierKind -> string)
    requires d.Variable?
    ensures RenderDeclaration(d, w, kw) == Ok(WithSink(w, Write(w.sink, VariableText(d.modifier, d.typeName, d.name, d.initializer, kw))))
  {
  }

  /** A function prototype follows the prototypes banner when it is the
      first function, and is closed by `;`. */
  lemma FunctionStepText(d: Decl, seenFunction: bool, seenVariable: bool, w: Writer, kw: ModifierKind -> string)
    requires d.Function?
    ensures var r := TopLevelStep(d, seenFunction, seenVariable, w, kw);
      r.Ok? && r.value.sink.text ==
        w.sink.text + (if seenFunction then "" else BannerText(w.sink.tabLevel, FunctionsTitle))
        + FunctionText(d.index, d.returnType, d.name, d.params) + ";" + NewLine
  {
    var b := Banners(d, seenFunction, seenVariable, w.sink);
    var pre := if seenFunction then "" else BannerText(w.sink.tabLevel, FunctionsTitle);
    if !seenFunction {
      FunctionsTitleSingleLine();
      BannerWritten(w.sink, FunctionsTitle);
    }
    assert b.text == w.sink.text + pre;
    var f := FunctionText(d.index, d.returnType, d.name, d.params);
    var w1 := WithSink(w, Write(b, f));
    FunctionDeclarationWrites(d, WithSink(w, b), kw);
    TerminatedStep(d, seenFunction, seenVariable, w, kw);
    assert TopLevelStep(d, seenFunction, seenVariable, w, kw) == Ok(WithSink(w1, WriteStatementEnd(w1.sink)));
    assert WriteStatementEnd(w1.sink).text == w.sink.text + pre + f + ";" + NewLine;
  }

  /** A script-level variable follows the variables banner when it is the
      first variable, and is closed by `;`. */
  lemma VariableStepText(d: Decl, seenFunction: bool, seenVariable: bool, w: Writer, kw: ModifierKind -> string)
    requires d.Variable?
    ensures var r := TopLevelStep(d, seenFunction, seenVariable, w, kw);
      r.Ok? && r.value.sink.text ==
        w.sink.text + (if seenVariable then "" else BannerText(w.sink.tabLevel, VariablesTitle))
        + VariableText(d.modifier, d.typeName, d.name, d.initializer, kw) + ";" + NewLine
  {
    var b := Banners(d, seenFunction, seenVariable, w.sink);
    var pre := if seenVariable then "" else BannerText(w.sink.tabLevel, VariablesTitle);
    if !seenVariable {
      VariablesTitleSingleLine();
      BannerWritten(w.sink, VariablesTitle);
    }
    assert b.text == w.sink.text + pre;
    var v := VariableText(d.modifier, d.typeName, d.name, d.initializer, kw);
    var w1 := WithSink(w, Write(b, v));
    VariableDeclarationWrites(d, WithSink(w, b), kw);
    TerminatedStep(d, seenFunction, seenVariable, w, kw);
    assert TopLevelStep(d, seenFunction, seenVariable, w, kw) == Ok(WithSink(w1, WriteStatementEnd(w1.sink)));
    assert WriteStatementEnd(w1.sink).text == w.sink.text + pre + v + ";" + NewLine;
  }

  /** A procedure gets no banner and no `;` of its own. */
  lemma ProcedureStepPlain(d: Decl, seenFunction: bool, seenVariable: bool, w: Writer, kw: ModifierKind -> string)
    requires d.Procedure?
    ensures TopLevelStep(d, seenFunction, seenVariable, w, kw) == RenderDeclaration(d, w, kw)
  {
    assert Banners(d, seenFunction, seenVariable, w.sink) == w.sink;
    assert WithSink(w, w.sink) == w;
  }

  /** Seeing declaration `i` updates the "came before" flags. */
  lemma BeforeStep(ds: seq<Decl>, i: nat)
    requires i < |ds|
    ensures FunctionBefore(ds, i + 1) == (FunctionBefore(ds, i) || ds[i].Function?)
    ensures VariableBefore(ds, i + 1) == (VariableBefore(ds, i) || ds[i].Variable?)
  {
    if ds[i].Function? {
      assert 0 <= i < i + 1 && ds[i].Function?;
    }
    if ds[i].Variable? {
      assert 0 <= i < i + 1 && ds[i].Variable?;
    }
  }

  lemma DeclarationsStep(ds: seq<Decl>, i: nat, seenFunction: bool, seenVariable: bool, w: Writer, kw: ModifierKind -> string)
    requires i < |ds|
    requires seenFunction == FunctionBefore(ds, i) && seenVariable == VariableBefore(ds, i)
    ensures var t := TopLevelStep(ds[i], seenFunction, seenVariable, w, kw);
      DeclarationsFrom(ds, i, w, kw) == if t.Err? then Err(t.error) else DeclarationsFrom(ds, i + 1, t.value, kw)
  {
  }

  /** Every top-level declaration ends at the start of a line. */
  lemma StepEndsLine(d: Decl, seenFunction: bool, seenVariable: bool, w: Writer, kw: ModifierKind -> string)
    ensures var r := TopLevelStep(d, seenFunction, seenVariable, w, kw);
      r.Ok? ==> !r.value.sink.insideLine
  {
    if d.Procedure? {
      ProcedureEndsLine(d, WithSink(w, Banners(d, seenFunction, seenVariable, w.sink)), kw);
    }
  }

  lemma {:induction false} DeclarationsEndLine(ds: seq<Decl>, i: nat, w: Writer, kw: ModifierKind -> string)
    requires i <= |ds|
    requires !w.sink.insideLine
    ensures DeclarationsFrom(ds, i, w, kw).Ok? ==> !DeclarationsFrom(ds, i, w, kw).value.sink.insideLine
    decreases |ds| - i
  {
    if i < |ds| {
      var f, v := FunctionBefore(ds, i), VariableBefore(ds, i);
      DeclarationsStep(ds, i, f, v, w, kw);
      var t := TopLevelStep(ds[i], f, v, w, kw);
      StepEndsLine(ds[i], f, v, w, kw);
      if t.Ok? {
        DeclarationsEndLine(ds, i + 1, t.value, kw);
      }
    }
  }

  /** A written unit is at level 0 and ends with a complete line. */
  lemma UnitEndsLine(cu: CompilationUnit, kw: ModifierKind -> string)
    ensures RenderUnit(cu, kw).Ok? ==>
      RenderUnit(cu, kw).value.sink.tabLevel == 0 && !RenderUnit(cu, kw).value.sink.insideLine
  {
    DeclarationsEndLine(cu.declarations, 0, AfterImports(cu), kw);
  }

  /** A step only appends to the text. */
  lemma StepAppends(d: Decl, seenFunction: bool, seenVariable: bool, w: Writer, kw: ModifierKind -> string)
    ensures var r := TopLevelStep(d, seenFunction, seenVariable, w, kw);
      r.Ok? ==> w.sink.text <= r.value.sink.text
  {
    var b := Banners(d, seenFunction, seenVariable, w.sink);
    DeclarationFollows(d, WithSink(w, b), kw);
    var r := RenderDeclaration(d, WithSink(w, b), kw);
    if d.Procedure? {
      ProcedureStepPlain(d, seenFunction, seenVariable, w, kw);
    } else {
      TerminatedStep(d, seenFunction, seenVariable, w, kw);
      if r.Ok? {
        PrefixTrans(w.sink.text, r.value.sink.text, WriteStatementEnd(r.value.sink).text);
      }
    }
    if r.Ok? {
      PrefixTrans(w.sink.text, b.text, r.value.sink.text);
    }
  }

  lemma {:induction false} DeclarationsAppend(ds: seq<Decl>, i: nat, w: Writer, kw: ModifierKind -> string)
    requires i <= |ds|
    ensures DeclarationsFrom(ds, i, w, kw).Ok? ==> w.sink.text <= DeclarationsFrom(ds, i, w, kw).value.sink.text
    decreases |ds| - i
  {
    if i < |ds| {
      var f, v := FunctionBefore(ds, i), VariableBefore(ds, i);
      DeclarationsStep(ds, i, f, v, w, kw);
      var t := TopLevelStep(ds[i], f, v, w, kw);
      StepAppends(ds[i], f, v, w, kw);
      if t.Ok? {
        DeclarationsAppend(ds, i + 1, t.value, kw);
      }
    }
  }

  lemma AfterImportsText(cu: CompilationUnit)
    requires 0 < |cu.imports|
    ensures AfterImports(cu).sink.text == ImportsBlockText(0, cu.imports)
  {
    ImportsBlock(Initial, cu.imports);
    var block := ImportsBlockText(0, cu.imports);
    assert Initial.text + block == block;
  }

  /** A unit with imports opens with the imports banner and one line per
      import, in order. */
  lemma UnitStartsWithImports(cu: CompilationUnit, kw: ModifierKind -> string)
    requires 0 < |cu.imports|
    ensures RenderUnit(cu, kw).Ok? ==>
      ImportsBlockText(0, cu.imports) <= RenderUnit(cu, kw).value.sink.text
  {
    AfterImportsText(cu);
    DeclarationsAppend(cu.declarations, 0, AfterImports(cu), kw);
  }

  /** The body of the unit writer's loop for declaration `i`: the banner
      and its flag, the declaration, and the terminator. Given flags that
      say whether a function or a variable came before `i`, it leaves flags
      that say so for `i + 1`, and the rest of the unit is then written
      from `i + 1` on, or the unit fails with this declaration's error. */
  method WriteTopLevel(ds: seq<Decl>, i: nat, seenFunction: bool, seenVariable: bool, w: Writer, kw: ModifierKind -> string)
    returns (r: Outcome, nowFunction: bool, nowVariable: bool)
    requires i < |ds|
    requires seenFunction == FunctionBefore(ds, i) && seenVariable == VariableBefore(ds, i)
    ensures nowFunction == FunctionBefore(ds, i + 1) && nowVariable == VariableBefore(ds, i + 1)
    ensures r.Err? ==> DeclarationsFrom(ds, i, w, kw) == r
    ensures r.Ok? ==> DeclarationsFrom(ds, i, w, kw) == DeclarationsFrom(ds, i + 1, r.value, kw)
  {
    BeforeStep(ds, i);
    DeclarationsStep(ds, i, seenFunction, seenVariable, w, kw);
    var d := ds[i];
    nowFunction, nowVariable := seenFunction, seenVariable;
    var s := w.sink;
    if !nowFunction && d.Function? {
      s := WriteBanner(s, FunctionsTitle);
      nowFunction := true;
    }
    if !nowVariable && d.Variable? {
      s := WriteBanner(s, VariablesTitle);
      nowVariable := true;
    }
    assert s == Banners(d, seenFunction, seenVariable, w.sink);
    var step := RenderDeclaration(d, WithSink(w, s), kw);
    if step.Err? {
      r := Err(step.error);
    } else if d.Procedure? {
      r := step;
    } else {
      r := Ok(WithSink(step.value, WriteStatementEnd(step.value.sink)));
    }
    assert r == TopLevelStep(d, seenFunction, seenVariable, w, kw);
  }

  /** The unit writer as the source runs it: the import block, then one
      pass over the declarations with a flag per banner, set when its
      banner is written. */
  method RenderCompilationUnit(cu: CompilationUnit, kw: ModifierKind -> string) returns (r: Outcome)
    ensures r == RenderUnit(cu, kw)
  {
    var ds := cu.declarations;
    var w := AfterImports(cu);
    var seenFunction, seenVariable := false, false;
    ghost var target := RenderUnit(cu, kw);
    var i := 0;
    while i < |ds|
      invariant i <= |ds|
      invariant seenFunction == FunctionBefore(ds, i)
      invariant seenVariable == VariableBefore(ds, i)
      invariant DeclarationsFrom(ds, i, w, kw) == target
    {
      var step;
      step, seenFunction, seenVariable := WriteTopLevel(ds, i, seenFunction, seenVariable, w, kw);
      if step.Err? {
        return step;
      }
      w := step.value;
      i := i + 1;
    }
    r := Ok(w);
  }
}

=== FILE: wrappers.dfy ===
/** Optional values and results with an error, usable with `:-`. */
module Wrappers {

  /** A value that may be absent (a C# reference that may be null). */
  datatype Option<+T> = None | Some(value: T)

  /** The outcome of an operation that may throw: a value, or the error it raised. */
  datatype Result<+T, +E> = Ok(value: T) | Err(error: E) {

    predicate IsFailure() {
      Err?
    }

    function PropagateFailure<U>(): Result<U, E>
      requires Err?
    {
      Err(error)
    }

    function Extract(): T
      requires Ok?
    {
      value
    }
  }
}
